=== FILE: README.md ===
# Weather outfit assistant — a Dafny model

This project models the three pieces of sequential logic in a small
weather-to-outfit web application.

- **The rule-based recommender** (`weather_assistant.py`), in `outfit.dfy`.
  A weather word is stripped, lower-cased and mapped through an alias table
  to a category. The category's template is copied, and the copy is adjusted
  by temperature band and by wind-speed band, each accessory addition guarded
  against duplicates (the code as written guards the freezing band's scarf
  only through the hat; see Findings). The module also covers the text form of a result and
  the parsing of an optional number. The in-place list updates of
  `_adjust_by_temperature` and `_adjust_by_wind` are methods of the class
  `OutfitDraft`. Each is proved equal to a pure step function
  (`WithTemperature`, `WithWind`), and the promises of the recommender are
  lemmas about those functions.
- **The Flask request validation and forecast assembly** (`test.py`), in
  `server.dfy`. This covers the field-keyed error map of `/api/recommend`,
  coordinate normalisation, safe extraction from the forecast service's
  parallel arrays, averaging of the daily extremes, and the assembly of up
  to seven forecast days behind `/api/auto-forecast`. The call to the
  forecast service is an input (`fetched`). `describe_open_meteo_code` is not
  part of this model; it is a function parameter (`describe`).
- **The browser client** (`static/js/app.js`), in `app_format.dfy` (pure
  formatters and the request body) and `app_view.dfy` (view state). The
  observable page is the fields of two classes, one per flow:
  `RecommendationForm` (placeholder, error slots, submit button, result
  panel) and `ForecastPanel` (status line, forecast list, refresh button).
  Each handler is a method whose new state is a pure step function of the
  old one. Each asynchronous call (the two requests and the geolocation
  lookup) splits its handler in two: a method for the part before the call,
  and one method for each outcome. The outcome (thrown, HTTP ok or not,
  `success`, decoded data, geolocation denied or failed) is a parameter.

`text.dfy` holds the shared helpers: whitespace stripping, ASCII
lower-casing, join and split, the decimal syntax of `float(str)` and
`Number(str)`, integer text, and `Math.round`.

## Model

| member | source | states |
|---|---|---|
| `Text.Strip` | weather_assistant.py:144 | The result has no whitespace at either end and is no longer than the input; it is empty exactly when the input is blank. |
| `Text.StripSpec` | weather_assistant.py:144 | The stripped text is the slice of the input after its leading whitespace, and everything before and after that slice is whitespace. |
| `Text.StripIdempotent` | static/js/app.js:51-53 | Stripping twice is stripping once. |
| `Text.Lower` | weather_assistant.py:144 | Lower-casing keeps the length and lower-cases every letter. |
| `Text.LowerStripStable` | weather_assistant.py:144 | A stripped, lower-cased key is unchanged by stripping and lower-casing again. |
| `Text.SplitJoin` | weather_assistant.py:31-34 | Splitting at a one-character separator undoes joining with it when no item contains the separator. |
| `Text.ParseIntToString` | static/js/app.js:405 | The decimal text of any integer parses back to that integer. |
| `Text.Round` | static/js/app.js:405 | `Math.round` gives the integer `r` with `r - 0.5 <= x < r + 0.5`. |
| `Outfit.NormalizeWeather` | weather_assistant.py:143-145 | An alias maps to a category that has a template; any other key is returned stripped and lower-cased. |
| `Outfit.NormalizeWeatherIdempotent` | weather_assistant.py:143-145 | Normalising a normalised weather word changes nothing. |
| `Outfit.CategoryIsNormal` | weather_assistant.py:47-70 | A category name survives strip and lower and is not itself an alias. |
| `Outfit.TemplateFor` | weather_assistant.py:127-128 | A known category gets its own template and any other word the `default` template. |
| `Outfit.TemplateChoice` | weather_assistant.py:127-128 | An alias selects its category's template; a word that is neither an alias nor a category gets the default template. |
| `Outfit.Band` | weather_assistant.py:156-174 | The five bands in the order <= 5, <= 15, >= 28, >= 22, otherwise; each band is characterised by an if-and-only-if on the temperature. |
| `Outfit.WithTemperature` | weather_assistant.py:156-176 | Exactly one tip is appended, namely the band's tip. The outfit is replaced only at <= 15 or >= 28. At <= 5 without the hat, the hat and then the scarf (if absent) are appended in that order; with the hat nothing is appended. The cool and hot bands append their scarf or sun hat exactly when it is absent. Between 15 and 28 the outfit and accessories are unchanged. The old lists are prefixes of the new ones, and distinct accessories stay distinct. |
| `Outfit.ColdWindyDuplicatesScarf` | weather_assistant.py:156-160 | As written, the windy template at 0 degrees ends with accessories `围巾, 保暖帽, 围巾`, a duplicate. |
| `Outfit.AsWrittenAgreesWithoutScarf` | weather_assistant.py:158-159 | When no scarf is present, the as-written and the guarded adjustments agree. |
| `Outfit.WithWind` | weather_assistant.py:186-192 | At >= 10 the strong-wind tip is appended and the windproof coat is present, added only if absent. At 5 <= w < 10 only the breeze tip is appended. Below 5 nothing changes. The outfit is kept, and distinct accessories stay distinct. |
| `Outfit.AsRecommendation` | weather_assistant.py:129-131 | The working copy starts with the template's outfit, accessories and tips. |
| `Outfit.Suggest` | weather_assistant.py:124-141 | The result is an error with the message `weather 不能为空` exactly when the weather is blank. |
| `Outfit.SuggestPlainIsTemplate` | weather_assistant.py:127-141 | With neither temperature nor wind, the result is the chosen template itself. |
| `Outfit.SuggestTipCount` | weather_assistant.py:129-141 | The tips are the template's tips, then one per temperature and one per wind of at least 5. |
| `Outfit.TemplatesDistinct` | weather_assistant.py:73-114 | No template lists an accessory twice. |
| `Outfit.SuggestDistinct` | weather_assistant.py:129-141 | No recommendation lists an accessory twice. |
| `Outfit.SuggestMildKeepsOutfit` | weather_assistant.py:171-174 | Between 15 and 28 degrees, and without strong wind, the outfit and accessories are the template's. |
| `Outfit.OutfitDraft.FromTemplate` | weather_assistant.py:129-131 | The working lists start as copies of the template's tuples. |
| `Outfit.OutfitDraft.AdjustByTemperature` | weather_assistant.py:147-176 | The in-place update leaves exactly `WithTemperature` of the old value. |
| `Outfit.OutfitDraft.AdjustByWind` | weather_assistant.py:178-192 | The in-place update leaves exactly `WithWind` of the old value. |
| `Outfit.SuggestOutfit` | weather_assistant.py:116-141 | The imperative recommender returns `Suggest` of its inputs, so every property of `Suggest` holds of it. |
| `Outfit.Format` | weather_assistant.py:26-34 | The text starts with the outfit line. With no lists it is exactly that line; otherwise the next line starts with `建议搭配：` when there are accessories, else with `贴心提示：`. `FormatReadsBack` gives the full read-back. |
| `Outfit.FormatReadsBack` | weather_assistant.py:26-34 | The text has the outfit line, an accessories line exactly when there are accessories, and a tips line exactly when there are tips. Each list line splits back into its items. |
| `Outfit.ParseOptionalFloat` | weather_assistant.py:195-204 | Blank text gives no number. Otherwise the stripped text is read as a decimal number, and text that does not parse gives the error `请输入有效的数字`. |
| `Outfit.ParseOptionalFloatReadsIntegers` | weather_assistant.py:198-202 | The text of any integer parses to that integer. |
| `Server.Truncate` | test.py:207 | `int()` of a float truncates toward zero. |
| `Server.PyFloat` | test.py:147 | `float()` keeps numbers, reads booleans as 1 and 0 and strings through the stripped decimal syntax, and fails on null, lists and dicts. |
| `Server.PyInt` | test.py:207 | `int()` truncates numbers toward zero, reads booleans as 1 and 0 and strings as optionally signed digits after stripping, and fails on null, lists and dicts. |
| `Server.ParseIntegerReadsIntegers` | test.py:207 | The decimal text of every integer reads back as that integer. |
| `Server.PyIntReadsIntegers` | test.py:207 | A weather code given as an integer, or as that integer's text, reads back as itself. |
| `Server.NormalizeMaybeNumber` | test.py:130-137 | A missing or null value gives no number and numbers are kept; `True` and `False` read as 1 and 0. Strings go through `parse_optional_float`, so blank strings give no number; lists and dicts, whose `str()` is never a number, give `请输入有效的数字`, the only error. |
| `Server.NormalizeCoordinate` | test.py:140-149 | Exactly missing, null or `""` gives `未能获取定位信息`. Numbers are kept, and `True`/`False` read as 1 and 0. Any other string succeeds exactly when its stripped text parses, with that value. Lists and dicts give `定位数据格式有误`. |
| `Server.SafeGetFloat` | test.py:235-249 | An index out of range in both directions gives `None`, as do a null or empty entry and a list or dict. A number at a valid index is returned, a boolean reads as 1 or 0, and any other string is its stripped text read as a decimal number, `None` when it does not parse. |
| `Server.SafeGetFloatFromEnd` | test.py:238-241 | A negative index in range reads the entry that many places from the end. |
| `Server.AverageTemperature` | test.py:226-232 | `None` exactly when both are missing, the single value when one is, otherwise the mean, which lies between min and max. |
| `Server.DayAt` | test.py:192-221 | A day fails exactly when its category is blank. It keeps its date, the description's text, `int()` of the weather code, and the `_safe_get_float` readings of the maximum, the minimum and the wind at its index. Its recommendation is `Suggest` of the category, the average temperature and the wind. |
| `Server.BuildDay` | test.py:192-221 | One loop iteration, written with the in-place recommender `SuggestOutfit`, computes exactly `DayAt`. |
| `Server.CollectDays` | test.py:192-223 | The loop appends one day per index below `n`, in order, and succeeds exactly when every day does; a failure carries the message of a failing day. |
| `Server.BuildForecastDays` | test.py:178-223 | A `daily` that is not a dict is rejected. Otherwise the result succeeds exactly when each of the first `min(7, len(time))` days succeeds, and then holds those days in order. |
| `Server.Recommend` | test.py:35-64 | 400 exactly when the weather is blank or a number is invalid, with exactly the failing keys and their messages; otherwise 200 with `Suggest` of the validated fields. |
| `Server.ReadCoordinates` | test.py:72-86 | One error per missing or malformed coordinate, under its own key with its message, and the values when valid. |
| `Server.AutoForecast` | test.py:67-127 | 400 exactly for coordinate errors. A failed fetch gives 502 with its message, a `daily` that is not a dict 502 with `NoDailyData`, a rejected day 502 with the blank-weather message, and no days 502 with the no-data message. Otherwise 200 carries the coordinates, the service's time zone and exactly the first min(7, n) days of `DayAt`, in order. |
| `AppFormat.OptionalField` | static/js/app.js:56-61 | A field becomes null exactly when it is blank, otherwise its trimmed text. |
| `AppFormat.NormalizePayload` | static/js/app.js:50-61 | All three fields are trimmed. Temperature and wind are null exactly when blank. The weather stays a (possibly empty) string. |
| `AppFormat.NormalizePayloadIdempotent` | static/js/app.js:50-61 | Normalising an already normalised body changes nothing. |
| `AppFormat.FormatTemperature` | static/js/app.js:400-406 | Empty exactly when the value is not a shown number (null counted as missing); otherwise the text ends in `°C`. |
| `AppFormat.FormatTemperatureReadsBack` | static/js/app.js:400-406 | The number in the text is the rounded value, within half a degree of the input. |
| `AppFormat.FormatTemperatureRangeAsWritten` | static/js/app.js:390-398 | As written: `max / min` when both convert with `Number`, the one that converts otherwise, and empty only when neither converts, so `null` counts as 0. |
| `AppFormat.FormatTemperatureRange` | static/js/app.js:390-398 | `max / min` when both are shown, the one shown otherwise, and empty exactly when neither is. |
| `AppFormat.NullTemperatureShownAsZero` | static/js/app.js:400-406 | As written, `null` prints as `0°C` and `(null, 20)` as `20°C / 0°C`; corrected, `(null, 20)` is `20°C` and `(null, null)` is empty. |
| `AppFormat.FormatWind` | static/js/app.js:408-414 | Empty exactly when the value is not a shown number. Otherwise the text is the prefix, the rounded value and ` m/s`, and the middle parses back to the rounded value. |
| `AppFormat.NullWindShownAsZero` | static/js/app.js:408-414 | As written, a null wind prints as `最大风速 0 m/s`; corrected, it is left out. |
| `AppFormat.FormatList` | static/js/app.js:416-421 | Empty for a non-array or an empty array; otherwise the items joined by the separator, and when no item holds the separator, splitting that text at it gives back the items. |
| `AppFormat.WeatherLine` | static/js/app.js:307-317 | The non-empty weather text and the non-empty range, in that order, joined by ` · `; a missing part is dropped with its separator. |
| `AppFormat.ItemText` | static/js/app.js:292-357 | The weather line is `WeatherLine` of the day. A wind line appears exactly when the wind is a shown number, and it is `FormatWind` of it. The outfit line is the recommendation's non-empty outfit, else the fallback text. Each list line is present exactly when `FormatList` of its list is non-empty, and then is that text. |
| `AppView.Listed` | static/js/app.js:130-143 | The wrapper is hidden exactly for a missing or empty list, which leaves no entries; otherwise the entries are the items in order. |
| `AppView.ListView.Render` | static/js/app.js:130-143 | The list ends as `Listed(items)`, which does not depend on the old list, so rendering twice is rendering once. |
| `AppView.ErrorsCleared` | static/js/app.js:167-171 | Every registered slot is emptied and nothing else changes. |
| `AppView.RecommendationForm.ClearErrors` | static/js/app.js:167-171 | The slot loop leaves exactly `ErrorsCleared` of the old state. |
| `AppView.SlotsShown` | static/js/app.js:151-165 | Registered slots keep their keys. An entry other than `general` with a slot overwrites that slot, and every other slot is unchanged. |
| `AppView.SlotsShownStep` | static/js/app.js:154-164 | Visiting one more entry changes at most that entry's own slot. |
| `AppView.ErrorsShown` | static/js/app.js:151-165 | `general` writes only the placeholder message, and other keys go to their slots. |
| `AppView.ErrorsShownTwice` | static/js/app.js:154-164 | Showing `a` and then `b` is showing `a + b`, so the visiting order does not matter. |
| `AppView.UnknownErrorsDropped` | static/js/app.js:160-163 | Errors none of whose keys is `general` or has a slot change nothing. |
| `AppView.RecommendationForm.DisplayErrors` | static/js/app.js:151-165 | The form ends as `ErrorsShown` of the old state. |
| `AppView.RecommendationForm.ErrorEntries` | static/js/app.js:154-164 | The loop over the entries, in any order, yields `SlotsShown` and the `general` message. |
| `AppView.PlaceholderShown` | static/js/app.js:145-149 | The placeholder is shown with the message and the panel is hidden. |
| `AppView.RecommendationForm.ShowPlaceholder` | static/js/app.js:145-149 | The form ends as `PlaceholderShown` of the old state. |
| `AppView.Loading` | static/js/app.js:173-176 | The button is disabled exactly while loading, and its caption follows. |
| `AppView.RecommendationForm.ToggleLoading` | static/js/app.js:173-176 | The form ends as `Loading` of the old state. |
| `AppView.ChipFor` | static/js/app.js:109-124 | A chip is hidden exactly when its field is blank; when shown, its text is the trimmed field and the unit; when hidden, it keeps its old text. |
| `AppView.WeatherSummary` | static/js/app.js:101 | The trimmed weather field, or `—` when blank; never empty. |
| `AppView.PanelFor` | static/js/app.js:98-127 | The panel is shown, with the recommendation's outfit or `暂无建议`. |
| `AppView.RecommendationRendered` | static/js/app.js:92-128 | Without data, the placeholder shows `暂时无法获取建议，请稍后再试。`. With data, the panel replaces the placeholder. The slots, inputs and button are untouched. |
| `AppView.RecommendationShown` | static/js/app.js:101-127 | The summary and chips come from the form fields, not the server, and the two lists are rendered. |
| `AppView.RecommendationForm.RenderRecommendation` | static/js/app.js:92-128 | The form ends as `RecommendationRendered` of the old state. |
| `AppView.RecommendationForm.ShowRecommendation` | static/js/app.js:98-127 | The branch with data ends as `RecommendationRendered` with that data. |
| `AppView.RecommendationForm.ShowLists` | static/js/app.js:126-127 | Both lists end as `Listed` of the recommendation's lists. |
| `AppView.RecommendationForm.ShowSummary` | static/js/app.js:101-124 | The summary and chips end as `WeatherSummary` and `ChipFor` of the fields. |
| `AppView.FailureMessage` | static/js/app.js:76-78 | `errors.general`, else `errors.weather`, else `请检查输入后再试一次。`; never empty. |
| `AppView.SubmitStarted` | static/js/app.js:46-48 | Every slot is cleared and the button is busy; nothing else changes. |
| `AppView.RecommendationForm.BeginSubmit` | static/js/app.js:45-61 | Posts the normalised body, and the form ends as `SubmitStarted`. |
| `AppView.SubmitFinished` | static/js/app.js:72-89 | On every path the button ends enabled with `生成穿搭`, the slot keys are kept, and the fields are untouched. |
| `AppView.RecommendationForm.FinishSubmit` | static/js/app.js:72-89 | The form ends as `SubmitFinished` of the old state and the outcome. |
| `AppView.SubmitFailure` | static/js/app.js:74-79 | A failed response shows the placeholder with the general-then-weather message and hides the panel. Each error with a slot is written to it and the other slots stay empty. |
| `AppView.SubmitFailureWithoutErrors` | static/js/app.js:74-79 | Without an error object, the placeholder shows the generic guidance and every slot stays empty. |
| `AppView.SubmitThrown` | static/js/app.js:83-89 | A thrown request shows the network message with every slot empty. |
| `AppView.SubmitSuccess` | static/js/app.js:82-89 | Success shows the panel built from the fields and the data, with every slot empty. |
| `AppView.SunnyScenario` | static/js/app.js:45-128 | `晴` with blank numbers posts nulls; the answer `短袖` is shown with both chips hidden. |
| `AppView.WeatherErrorScenario` | static/js/app.js:74-79 | A weather-only error fills the weather slot and also becomes the placeholder text. |
| `AppView.StatusUpdated` | static/js/app.js:359-366 | The status becomes the message and flag, or nothing changes without a status line. |
| `AppView.ForecastPanel.UpdateForecastStatus` | static/js/app.js:359-366 | The panel ends as `StatusUpdated` of the old state. |
| `AppView.RefreshSet` | static/js/app.js:202-204 | The refresh flag is set only when the button exists. |
| `AppView.ForecastRequested` | static/js/app.js:194-205 | With a status line and geolocation, the list is hidden, the locating or relocating text shown and refresh disabled; otherwise nothing changes. |
| `AppView.ForecastPanel.RequestAutoForecast` | static/js/app.js:194-205 | The panel ends as `ForecastRequested` of the old state. |
| `AppView.AutoForecastStarted` | static/js/app.js:178-192 | Without geolocation, the unsupported error is shown and refresh disabled; otherwise the first request is made. |
| `AppView.ForecastPanel.InitAutoForecast` | static/js/app.js:178-192 | The panel ends as `AutoForecastStarted` of the old state. |
| `AppView.UnsupportedIsFinal` | static/js/app.js:183-197 | Without geolocation, later requests change nothing and refresh stays disabled. |
| `AppView.LocationFailed` | static/js/app.js:210-220 | The denied or generic text is shown as an error, refresh is enabled, and the list is untouched. |
| `AppView.ForecastPanel.OnLocateError` | static/js/app.js:210-220 | The panel ends as `LocationFailed` of the old state. |
| `AppView.ForecastFetching` | static/js/app.js:229-234 | The status shows the fetching text. |
| `AppView.ForecastPanel.BeginFetch` | static/js/app.js:229-234 | The panel ends as `ForecastFetching` of the old state. |
| `AppView.ForecastRendered` | static/js/app.js:265-290 | Missing or empty days empty and hide the list, with the no-forecast error. Otherwise there is one item per day and a non-error status naming a non-empty time zone. Refresh is untouched. |
| `AppView.ForecastPanel.RenderForecastDays` | static/js/app.js:265-290 | The panel ends as `ForecastRendered` of the old state. |
| `AppView.ForecastPanel.ForecastItems` | static/js/app.js:278-280 | The loop yields `ItemText` of each day, in order. |
| `AppView.FetchFailureMessage` | static/js/app.js:247-250 | `errors.general` when non-empty, else the service-unavailable text. |
| `AppView.ForecastFetched` | static/js/app.js:236-262 | Refresh ends enabled on every path. A thrown request and a failed response show their error texts and leave the list as it was. A successful response renders its data as `ForecastRendered`. |
| `AppView.ForecastPanel.FinishFetch` | static/js/app.js:236-262 | The panel ends as `ForecastFetched` of the old state and the outcome. |
| `AppView.ForecastAttemptFails` | static/js/app.js:236-276 | A whole attempt without days on screen ends with the list hidden, an error status and refresh enabled. |
| `AppView.ForecastAttemptSucceeds` | static/js/app.js:265-290 | A whole attempt with days shows one item per day, in order, with a success status and refresh enabled. |
| `AppView.LocationAttemptFails` | static/js/app.js:199-219 | A request whose lookup fails ends with the list hidden, the matching error text and refresh enabled. |

## Left out

- `formatDate` (static/js/app.js:368-388) depends on `Date` parsing and `Intl.DateTimeFormat`, so forecast items carry no date text.
- DOM construction is not modelled: element creation, class names, the `搭配：`/`提示：` label markup, focus, and the quick-tag buttons (static/js/app.js:25-31). The model keeps only the texts and flags the page shows.
- `fetch`, `response.json()` and `navigator.geolocation` are outcome parameters of the per-outcome methods. Their timing is not modelled, so neither is the interleaving of overlapping requests; each run of a flow is modelled in sequence.
- `console.error` logging is not modelled.
- Flask routing, `jsonify`, `render_template` and the form-encoded fallback body (test.py:16-33) are not modelled; the request body is a map of decoded JSON values. A truthy body that is not a JSON object, and a forecast response that is not one, make `.get` raise `AttributeError` and Flask answer 500 (test.py:30-34, 70-71, 181); those 500 paths are not modelled.
- `_fetch_forecast` (test.py:152-175) is not modelled. It performs the HTTP call, which is an input; its two error texts reach the model only as that input's message.
- `describe_open_meteo_code` is not part of this model; it is a function parameter.
- `Text.ParseDecimal`: Python's `float(str)` and JavaScript's `Number(str)` share one decimal syntax here (optional sign, digits, optional point and digits). Exponents, `inf`/`nan`/`Infinity`, underscores, hexadecimal and the floating-point rounding of the value are not modelled. Numbers are exact reals, and `Math.round` is `floor(x + 1/2)`.
- `Text.IsSpace`: one whitespace set stands for both Python's `str.strip()` and JavaScript's `trim()`: the characters both remove, namely tab to carriage return, the space, the space separators U+00A0, U+1680, U+2000 to U+200A, U+202F, U+205F and U+3000, and U+2028 and U+2029. Python also strips U+001C to U+001F and U+0085, and JavaScript also trims U+FEFF. The model treats those six characters as text.
- `Text.Lower`: only ASCII letters are lower-cased; no alias or category needs more.
- `Server.WeatherField`: `str()` of a non-integral number, a list or a dict is a fixed non-blank text. Those texts are never an alias or a category, so they only select the default template.
- `Server.Column`: a `daily` entry that is a dict, a number or `true` is read as an empty array. In Python, `list()` of a dict gives its keys, and `list()` of a number or `true` raises an unhandled `TypeError`.
- `AppFormat.RecommendationView`: a list that is not an array is `None`, and list items are strings. A string's `length` and non-string items are not modelled.
- `AppFormat.ToNumber`: numbers of 1e21 and more, which `String` prints in exponent form, are not modelled.
- `AppView.ForecastState`: the page either has both the status line and the list or neither (`hasForecast`). `renderForecastDays` tests only the list and `updateForecastStatus` only the status line; `requestAutoForecast` and `fetchAutoForecast` test both.
- The initial texts of the page come from `index.html`, which is not part of this model. The constructors start from empty texts.
- `Outfit.Suggest`, `Outfit.SuggestOutfit`, `Outfit.OutfitDraft.AdjustByTemperature`, `Server.Recommend`, `Server.DayAt`, `Server.BuildDay`, `Server.BuildForecastDays`, `Server.AutoForecast`: these model the corrected recommender of the Findings table, not the code as written. At or below 5 degrees the scarf is appended only when absent, so `大风` at 0 degrees gives `围巾, 保暖帽` where weather_assistant.py gives `围巾, 保暖帽, 围巾`. The as-written adjustment is `Outfit.WithTemperatureAsWritten`.
- `AppFormat.FormatTemperatureRange`, `AppFormat.WeatherLine`, `AppFormat.ItemText`, `AppView.ForecastRendered`, `AppView.ForecastPanel.RenderForecastDays`, `AppView.ForecastPanel.ForecastItems`, `AppView.ForecastFetched`: these model the corrected client of the Findings table, not the code as written. A `null` temperature or wind speed is missing, so a day whose minimum is `null` and whose maximum is 20 reads `20°C` where app.js prints `20°C / 0°C`, and a `null` wind has no wind line. The as-written formatters are `AppFormat.FormatTemperatureAsWritten` and `AppFormat.FormatWindAsWritten`.

## Findings

| source | as written | input that shows it | evidently intended | confidence | as-written member | corrected member |
|---|---|---|---|---|---|---|
| static/js/app.js:400-406 | `Number(null)` is 0, so a temperature that is `null` passes the finiteness test and prints as `0°C` | `formatTemperatureRange(null, 20)` gives `20°C / 0°C` | a `null` temperature is missing: `20°C` | not executed | `AppFormat.FormatTemperatureAsWritten`, shown by `AppFormat.NullTemperatureShownAsZero` | `AppFormat.FormatTemperature`, `AppFormat.FormatTemperatureRange` |
| static/js/app.js:408-414 | `Number(null)` is 0, so a wind speed that is `null` prints as a wind line | `formatWind(null)` gives `最大风速 0 m/s` | no wind line for a missing wind speed | not executed | `AppFormat.FormatWindAsWritten`, shown by `AppFormat.NullWindShownAsZero` | `AppFormat.FormatWind` |
| weather_assistant.py:156-160 | the freezing band tests only for `保暖帽` before adding `保暖帽` and `围巾` | weather `大风` (the windy template, whose accessories already hold `围巾`) at 0 degrees gives `围巾, 保暖帽, 围巾` | each accessory added only if absent, as every other addition is | not executed | `Outfit.WithTemperatureAsWritten`, shown by `Outfit.ColdWindyDuplicatesScarf` | `Outfit.WithTemperature`, `Outfit.OutfitDraft.AdjustByTemperature` |

=== FILE: app_format.dfy ===
/** The pure part of the browser client (static/js/app.js): normalisation
    of the recommendation request body, and the text formatters used for
    forecast items (temperature, temperature range, wind, lists, the weather
    line). */
module AppFormat {
  import opened Text

  /** A scalar JavaScript value as the formatters receive it from decoded
      JSON; `Undefined` stands for a missing key. */
  datatype JsValue = Undefined | Null | Bool(b: bool) | Num(n: real) | Str(s: string)

  /** The body posted to the recommendation endpoint. */
  datatype Payload = Payload(weather: string, temperature: Option<string>, windSpeed: Option<string>)

  /** A recommendation as the client reads it: each field may be missing,
      and a list that is not an array is `None`. */
  datatype RecommendationView = RecommendationView(outfit: Option<string>, accessories: Option<seq<string>>, tips: Option<seq<string>>)

  /** A forecast day as the client reads it. */
  datatype ForecastDayView = ForecastDayView(
    date: Option<string>,
    weatherText: Option<string>,
    temperatureMin: JsValue,
    temperatureMax: JsValue,
    windSpeed: JsValue,
    recommendation: Option<RecommendationView>)

  /** The text parts of one rendered forecast item; an absent line is `None`. */
  datatype ForecastItem = ForecastItem(weatherLine: string, wind: Option<string>, outfit: string, accessories: Option<string>, tips: Option<string>)

  const Degrees := "°C"
  const WindPrefix := "最大风速 "
  const WindSuffix := " m/s"
  const RangeSeparator := " / "
  const WeatherSeparator := " · "
  const NoForecastOutfit := "暂无穿搭建议，请稍后再试。"

  // ---------------------------------------------------------------------
  // Request body

  /** A trimmed field, `None` (sent as `null`) when the trimmed text is empty. */
  function OptionalField(raw: string): (r: Option<string>)
    ensures r.None? <==> IsBlank(raw)
    ensures r.Some? ==> r.value == Strip(raw) && r.value != []
  {
    var t := Strip(raw);
    if t == [] then None else Some(t)
  }

  /** The body built by the submit handler: all three fields trimmed, a blank
      temperature or wind speed replaced by `null`, the weather kept as a
      (possibly empty) string. */
  function NormalizePayload(weather: string, temperature: string, windSpeed: string): (p: Payload)
    ensures p.weather == Strip(weather)
    ensures p.temperature.None? <==> IsBlank(temperature)
    ensures p.windSpeed.None? <==> IsBlank(windSpeed)
    ensures p.temperature.Some? ==> p.temperature.value == Strip(temperature)
    ensures p.windSpeed.Some? ==> p.windSpeed.value == Strip(windSpeed)
  {
    Payload(Strip(weather), OptionalField(temperature), OptionalField(windSpeed))
  }

  /** Normalising an already normalised body changes nothing. */
  lemma NormalizePayloadIdempotent(weather: string, temperature: string, windSpeed: string)
    ensures var p := NormalizePayload(weather, temperature, windSpeed);
            NormalizePayload(p.weather, p.temperature.GetOr(""), p.windSpeed.GetOr("")) == p
  {
    StripIdempotent(weather);
    StripIdempotent(temperature);
    StripIdempotent(windSpeed);
  }

  // ---------------------------------------------------------------------
  // Numbers

  /** `Number(value)`; `None` stands for NaN. Every other result is finite. */
  function ToNumber(v: JsValue): Option<real> {
    match v
    case Undefined => None
    case Null => Some(0.0)
    case Bool(b) => Some(if b then 1.0 else 0.0)
    case Num(n) => Some(n)
    case Str(s) => if Strip(s) == [] then Some(0.0) else ParseDecimal(Strip(s))
  }

  /** A value the forecast item shows as a number: a finite number, with
      `null` counted as missing. */
  predicate Shown(v: JsValue) {
    !v.Null? && ToNumber(v).Some?
  }

  /** `formatTemperature` as written: `Number(null)` is 0, so a missing
      temperature sent as `null` prints as `0°C`. */
  function FormatTemperatureAsWritten(v: JsValue): string {
    match ToNumber(v)
    case None => ""
    case Some(x) => IntToString(Round(x)) + Degrees
  }

  /** `formatTemperature` with `null` treated as missing: the empty text for
      anything that is not a finite number, else the rounded number and the
      unit. */
  function FormatTemperature(v: JsValue): (r: string)
    ensures r == "" <==> !Shown(v)
    ensures Shown(v) ==> |r| > |Degrees| && r[|r| - |Degrees|..] == Degrees
  {
    if v.Null? then "" else FormatTemperatureAsWritten(v)
  }

  /** The text of a shown temperature reads back as the nearest integer. */
  lemma FormatTemperatureReadsBack(v: JsValue)
    requires Shown(v)
    ensures var r := FormatTemperature(v);
            var k := Round(ToNumber(v).value);
            && ParseDecimal(r[..|r| - |Degrees|]) == Some(k as real)
            && k as real - 0.5 <= ToNumber(v).value < k as real + 0.5
  {
    var k := Round(ToNumber(v).value);
    var r := FormatTemperature(v);
    assert r[..|r| - |Degrees|] == IntToString(k);
    ParseIntToString(k);
  }

  /** `formatTemperatureRange(min, max)` as written. */
  function FormatTemperatureRangeAsWritten(min: JsValue, max: JsValue): (r: string)
    ensures ToNumber(min).Some? && ToNumber(max).Some? ==>
      r == FormatTemperatureAsWritten(max) + RangeSeparator + FormatTemperatureAsWritten(min)
    ensures ToNumber(max).Some? && ToNumber(min).None? ==> r == FormatTemperatureAsWritten(max)
    ensures ToNumber(min).Some? && ToNumber(max).None? ==> r == FormatTemperatureAsWritten(min)
    ensures r == "" <==> ToNumber(min).None? && ToNumber(max).None?
  {
    var minText := FormatTemperatureAsWritten(min);
    var maxText := FormatTemperatureAsWritten(max);
    if minText != "" && maxText != "" then maxText + RangeSeparator + minText
    else if maxText != "" then maxText
    else minText
  }

  /** `formatTemperatureRange(min, max)` over the corrected temperature text:
      "max / min" when both are shown, the one shown otherwise, else empty. */
  function FormatTemperatureRange(min: JsValue, max: JsValue): (r: string)
    ensures Shown(min) && Shown(max) ==> r == FormatTemperature(max) + RangeSeparator + FormatTemperature(min)
    ensures Shown(max) && !Shown(min) ==> r == FormatTemperature(max)
    ensures Shown(min) && !Shown(max) ==> r == FormatTemperature(min)
    ensures r == "" <==> !Shown(min) && !Shown(max)
  {
    var minText := FormatTemperature(min);
    var maxText := FormatTemperature(max);
    if minText != "" && maxText != "" then maxText + RangeSeparator + minText
    else if maxText != "" then maxText
    else minText
  }

  /** A forecast day whose temperatures are both `null` shows "0°C / 0°C" in
      the code as written, and a day with only a maximum shows the missing
      minimum as 0 degrees. */
  lemma NullTemperatureShownAsZero()
    ensures FormatTemperatureAsWritten(Null) == "0°C"
    ensures FormatTemperatureRangeAsWritten(Null, Num(20.0)) == "20°C / 0°C"
    ensures FormatTemperatureRange(Null, Num(20.0)) == "20°C"
    ensures FormatTemperatureRange(Null, Null) == ""
  {
    assert Round(0.0) == 0 && Round(20.0) == 20;
    assert IntToString(20) == "20";
  }

  /** `formatWind` as written: `null` prints as a wind speed of 0. */
  function FormatWindAsWritten(v: JsValue): string {
    match ToNumber(v)
    case None => ""
    case Some(x) => WindPrefix + IntToString(Round(x)) + WindSuffix
  }

  /** `formatWind` with `null` treated as missing. */
  function FormatWind(v: JsValue): (r: string)
    ensures r == "" <==> !Shown(v)
    ensures Shown(v) ==> |r| > |WindPrefix| + |WindSuffix|
                         && r[..|WindPrefix|] == WindPrefix
                         && r[|r| - |WindSuffix|..] == WindSuffix
                         && ParseDecimal(r[|WindPrefix|..|r| - |WindSuffix|]) == Some(Round(ToNumber(v).value) as real)
  {
    if v.Null? then ""
    else
      var r := FormatWindAsWritten(v);
      if Shown(v) then
        var k := Round(ToNumber(v).value);
        ParseIntToString(k);
        assert r[|WindPrefix|..|r| - |WindSuffix|] == IntToString(k);
        r
      else r
  }

  /** A missing wind speed sent as `null` shows as "最大风速 0 m/s" in the
      code as written, and is left out after the correction. */
  lemma NullWindShownAsZero()
    ensures FormatWindAsWritten(Null) == "最大风速 0 m/s"
    ensures FormatWind(Null) == ""
  {
    assert Round(0.0) == 0;
  }

  // ---------------------------------------------------------------------
  // Lists and lines

  /** `formatList(items, separator)`: empty for a non-array or an empty
      array, otherwise the items joined by the separator. */
  function FormatList(items: Option<seq<string>>, sep: char): (r: string)
    ensures items.None? || items.value == [] ==> r == ""
    ensures items.Some? && items.value != [] ==> r == Join(items.value, [sep])
    ensures items.Some? && items.value != [] && FreeOf(items.value, sep) ==> Split(r, sep) == items.value
  {
    if items.None? || items.value == [] then ""
    else
      var r := Join(items.value, [sep]);
      if FreeOf(items.value, sep) then
        SplitJoin(items.value, sep);
        r
      else r
  }

  /** The weather line of a forecast item: the non-empty weather text and the
      temperature range, in that order, joined by " · "; a missing part is
      left out with its separator. */
  function WeatherLine(weatherText: Option<string>, min: JsValue, max: JsValue): (r: string)
    ensures var range := FormatTemperatureRange(min, max);
            var hasText := weatherText.Some? && weatherText.value != "";
            && (hasText && range != "" ==> r == weatherText.value + WeatherSeparator + range)
            && (hasText && range == "" ==> r == weatherText.value)
            && (!hasText ==> r == range)
  {
    var range := FormatTemperatureRange(min, max);
    var text: seq<string> := if weatherText.Some? && weatherText.value != "" then [weatherText.value] else [];
    var parts := text + (if range != "" then [range] else []);
    assert |parts| == 2 ==> parts[1..] == [range] && Join(parts, WeatherSeparator) == parts[0] + WeatherSeparator + range;
    Join(parts, WeatherSeparator)
  }

  /** The text parts of `createForecastItem(day)` (the date, which depends
      on the browser's date formatting, is left out). */
  function ItemText(day: ForecastDayView): (item: ForecastItem)
    ensures item.outfit != ""
    ensures item.wind.Some? <==> Shown(day.windSpeed)
    ensures item.accessories.Some? ==> item.accessories.value != ""
    ensures item.tips.Some? ==> item.tips.value != ""
    ensures day.recommendation.None? ==>
      item.outfit == NoForecastOutfit && item.accessories.None? && item.tips.None?
    ensures item.weatherLine == WeatherLine(day.weatherText, day.temperatureMin, day.temperatureMax)
    ensures Shown(day.windSpeed) ==> item.wind == Some(FormatWind(day.windSpeed))
    ensures var rec := day.recommendation;
            && (rec.Some? && rec.value.outfit.Some? && rec.value.outfit.value != "" ==> item.outfit == rec.value.outfit.value)
            && (rec.Some? && (rec.value.outfit.None? || rec.value.outfit.value == "") ==> item.outfit == NoForecastOutfit)
    ensures var rec := day.recommendation;
            rec.Some? ==>
              var accessories := FormatList(rec.value.accessories, '、');
              var tips := FormatList(rec.value.tips, '；');
              && (item.accessories.Some? <==> accessories != "")
              && (item.accessories.Some? ==> item.accessories.value == accessories)
              && (item.tips.Some? <==> tips != "")
              && (item.tips.Some? ==> item.tips.value == tips)
  {
    var wind := FormatWind(day.windSpeed);
    var rec := day.recommendation.GetOr(RecommendationView(None, None, None));
    var outfit := if rec.outfit.Some? && rec.outfit.value != "" then rec.outfit.value else NoForecastOutfit;
    var accessories := FormatList(rec.accessories, '、');
    var tips := FormatList(rec.tips, '；');
    ForecastItem(
      WeatherLine(day.weatherText, day.temperatureMin, day.temperatureMax),
      if wind != "" then Some(wind) else None,
      outfit,
      if accessories != "" then Some(accessories) else None,
      if tips != "" then Some(tips) else None)
  }
}

=== FILE: app_view.dfy ===
/** The browser client's view-state controller (static/js/app.js): the
    recommendation form flow (submit, error slots, placeholder, result panel)
    and the automatic forecast flow (locate, fetch, render). The observable
    page is the fields of two classes, one per flow; each handler is a method whose new state is
    a pure step function of the old one, and the promises of the page are
    lemmas about those step functions. Each asynchronous call (the two
    requests and the geolocation lookup) splits its handler into a method
    that runs before the call and one per outcome that runs after it. */
module AppView {
  import opened Text
  import opened AppFormat

  // ---------------------------------------------------------------------
  // Texts

  const General := "general"
  const WeatherKey := "weather"
  const IdleLabel := "生成穿搭"
  const BusyLabel := "生成中…"
  const NetworkFailure := "网络连接异常，请稍后重试。"
  const RequestFailed := "请求失败，请稍后重试。"
  const CheckInput := "请检查输入后再试一次。"
  const NoAdvice := "暂时无法获取建议，请稍后再试。"
  const NoOutfit := "暂无建议"
  const NoWeather := "—"
  const WindUnit := " m/s"
  const Unsupported := "当前浏览器不支持定位功能，请使用表单获取建议。"
  const Locating := "正在定位…"
  const Relocating := "重新定位中…"
  const LocateFailed := "定位失败，请稍后再试。"
  const LocateDenied := "定位被拒绝，无法自动获取天气。"
  const Fetching := "正在获取 7 天天气与穿搭建议…"
  const ServiceDown := "天气服务暂时不可用，请稍后再试。"
  const FetchFailed := "获取天气数据失败，请稍后重试。"
  const NoForecast := "暂无可用的预报信息。"
  const ForecastReady := "已基于你的位置生成未来 7 天的穿搭建议。"

  /** The success status naming the forecast's time zone. */
  function ForecastReadyIn(timezone: string): string {
    "已基于你的位置（" + timezone + "）生成未来 7 天的穿搭建议。"
  }

  // ---------------------------------------------------------------------
  // Outcomes of the asynchronous calls

  /** How the recommendation request ended: an exception (network or JSON
      decoding), or a decoded response with its HTTP `ok` flag. */
  datatype SubmitOutcome =
    | Thrown
    | Responded(ok: bool, success: bool, data: Option<RecommendationView>, errors: Option<map<string, string>>)

  /** The `data` of a forecast response: `days` is `None` when it is not an
      array, and the time zone is `None` when `location.timezone` is missing. */
  datatype ForecastView = ForecastView(days: Option<seq<ForecastDayView>>, timezone: Option<string>)

  /** How the forecast request ended; `general` is `errors.general`. */
  datatype FetchOutcome =
    | FetchThrown
    | FetchResponded(ok: bool, success: bool, data: Option<ForecastView>, general: Option<string>)

  // ---------------------------------------------------------------------
  // The observable page

  /** A list element and the hidden flag of the block that wraps it. */
  datatype ListState = ListState(entries: seq<string>, hidden: bool)

  /** A summary chip: its text and whether it is hidden. */
  datatype Chip = Chip(text: string, hidden: bool)

  /** The three form fields as the user left them. */
  datatype Inputs = Inputs(weather: string, temperature: string, wind: string)

  /** The placeholder shown instead of a result. */
  datatype Placeholder = Placeholder(hidden: bool, message: string)

  /** The submit button. */
  datatype Button = Button(disabled: bool, caption: string)

  /** The result panel: its visibility, the weather summary and chips, the
      outfit line and the two lists. */
  datatype Panel = Panel(hidden: bool, weather: string, temperature: Chip, wind: Chip, outfit: string, accessories: ListState, tips: ListState)

  /** The region owned by the recommendation flow; `slots` maps every
      registered error slot to its text. */
  datatype FormState = FormState(inputs: Inputs, placeholder: Placeholder, slots: map<string, string>, button: Button, panel: Panel)

  /** Which parts of the forecast region the page and the browser provide:
      `hasForecast` is the status line and the list, `hasRefresh` the
      refresh button, `hasGeolocation` the geolocation service. */
  datatype Page = Page(hasForecast: bool, hasRefresh: bool, hasGeolocation: bool)

  /** The status line of the forecast region. */
  datatype Status = Status(text: string, isError: bool)

  /** The region owned by the forecast flow. */
  datatype ForecastState = ForecastState(page: Page, items: seq<ForecastItem>, listHidden: bool, status: Status, refreshDisabled: bool)

  /** What `renderList` leaves for `items`. */
  function Listed(items: Option<seq<string>>): (r: ListState)
    ensures r.hidden <==> items.None? || items.value == []
    ensures r.hidden ==> r.entries == []
    ensures !r.hidden ==> r.entries == items.value
  {
    if items.None? || items.value == [] then ListState([], true) else ListState(items.value, false)
  }

  // ---------------------------------------------------------------------
  // Recommendation flow

  /** `clearErrors`: every registered slot emptied, nothing else touched. */
  function ErrorsCleared(s: FormState): (r: FormState)
    ensures r.slots.Keys == s.slots.Keys
    ensures forall k :: k in r.slots ==> r.slots[k] == ""
    ensures r == s.(slots := r.slots)
  {
    s.(slots := map k | k in s.slots :: "")
  }

  /** The slots after `displayErrors(errors)`: every key other than
      `general` that has a registered slot overwrites that slot. */
  function SlotsShown(slots: map<string, string>, errors: map<string, string>): (r: map<string, string>)
    ensures r.Keys == slots.Keys
    ensures forall k :: k in r && k != General && k in errors ==> r[k] == errors[k]
    ensures forall k :: k in r && (k == General || k !in errors) ==> r[k] == slots[k]
  {
    map k | k in slots :: if k != General && k in errors then errors[k] else slots[k]
  }

  /** The entries of `errors` whose keys are no longer pending. */
  function Visited(errors: map<string, string>, pending: set<string>): (r: map<string, string>)
    ensures r.Keys == errors.Keys - pending
    ensures forall k :: k in r ==> r[k] == errors[k]
  {
    map k | k in errors && k !in pending :: errors[k]
  }

  /** Adding one entry to the errors shown changes at most its own slot. */
  lemma SlotsShownStep(slots: map<string, string>, errors: map<string, string>, key: string, message: string)
    ensures var before := SlotsShown(slots, errors);
            SlotsShown(slots, errors[key := message])
              == if key != General && key in slots then before[key := message] else before
  {
    var before := SlotsShown(slots, errors);
    var after := SlotsShown(slots, errors[key := message]);
    var expected := if key != General && key in slots then before[key := message] else before;
    assert after.Keys == expected.Keys;
    forall k | k in after ensures after[k] == expected[k] {
      if k == key {
        assert k != General && k in slots ==> after[k] == message;
      }
    }
    assert after == expected;
  }

  /** `displayErrors(errors)`: `general` goes to the placeholder message, every
      other key to its registered slot; keys without a slot are dropped. */
  function ErrorsShown(s: FormState, errors: map<string, string>): (r: FormState)
    ensures r.slots == SlotsShown(s.slots, errors)
    ensures General in errors ==> r.placeholder.message == errors[General]
    ensures General !in errors ==> r.placeholder == s.placeholder
    ensures r == s.(slots := r.slots, placeholder := s.placeholder.(message := r.placeholder.message))
  {
    s.(slots := SlotsShown(s.slots, errors),
       placeholder := if General in errors then s.placeholder.(message := errors[General]) else s.placeholder)
  }

  /** Showing the errors of `a` and then those of `b` is showing their union,
      `b` winning on shared keys: the order in which the entries of one
      error object are visited does not matter. */
  lemma ErrorsShownTwice(s: FormState, a: map<string, string>, b: map<string, string>)
    ensures ErrorsShown(ErrorsShown(s, a), b) == ErrorsShown(s, a + b)
  {
    assert SlotsShown(SlotsShown(s.slots, a), b) == SlotsShown(s.slots, a + b);
  }

  /** Keys that have no slot and are not `general` change nothing. */
  lemma UnknownErrorsDropped(s: FormState, errors: map<string, string>)
    requires General !in errors
    requires forall k :: k in errors ==> k !in s.slots
    ensures ErrorsShown(s, errors) == s
  {
    assert SlotsShown(s.slots, errors) == s.slots;
  }

  /** `showPlaceholder(message)`. */
  function PlaceholderShown(s: FormState, message: string): (r: FormState)
    ensures r.placeholder == Placeholder(false, message) && r.panel.hidden
    ensures r == s.(placeholder := r.placeholder, panel := s.panel.(hidden := true))
  {
    s.(placeholder := Placeholder(false, message), panel := s.panel.(hidden := true))
  }

  /** `toggleLoading(on)`. */
  function Loading(s: FormState, on: bool): (r: FormState)
    ensures r.button.disabled == on
    ensures r.button.caption == if on then BusyLabel else IdleLabel
    ensures r == s.(button := r.button)
  {
    s.(button := Button(on, if on then BusyLabel else IdleLabel))
  }

  /** A chip built from a form field: shown with the trimmed field and the
      unit when the field is not blank, hidden with its old text otherwise. */
  function ChipFor(previous: Chip, field: string, unit: string): (c: Chip)
    ensures c.hidden <==> IsBlank(field)
    ensures !c.hidden ==> c.text == Strip(field) + unit
    ensures c.hidden ==> c.text == previous.text
  {
    var t := Strip(field);
    if t == "" then previous.(hidden := true) else Chip(t + unit, false)
  }

  /** The weather summary: the trimmed weather field, or a dash when blank. */
  function WeatherSummary(field: string): (w: string)
    ensures w != ""
    ensures IsBlank(field) ==> w == NoWeather
    ensures !IsBlank(field) ==> w == Strip(field)
  {
    var t := Strip(field);
    if t == "" then NoWeather else t
  }

  /** The result panel `renderRecommendation` fills in for a recommendation:
      the summary is built from the form fields, the outfit and the lists
      from the recommendation. */
  function PanelFor(s: FormState, d: RecommendationView): (p: Panel)
    ensures !p.hidden && p.outfit != ""
    ensures d.outfit.Some? && d.outfit.value != "" ==> p.outfit == d.outfit.value
    ensures d.outfit.None? || d.outfit.value == "" ==> p.outfit == NoOutfit
  {
    Panel(
      false,
      WeatherSummary(s.inputs.weather),
      ChipFor(s.panel.temperature, s.inputs.temperature, Degrees),
      ChipFor(s.panel.wind, s.inputs.wind, WindUnit),
      if d.outfit.Some? && d.outfit.value != "" then d.outfit.value else NoOutfit,
      Listed(d.accessories),
      Listed(d.tips))
  }

  /** `renderRecommendation(data)`: without data, the placeholder with a fixed
      message; otherwise the result panel instead of the placeholder. */
  function RecommendationRendered(s: FormState, data: Option<RecommendationView>): (r: FormState)
    ensures data.None? ==> r.placeholder == Placeholder(false, NoAdvice) && r.panel.hidden
    ensures data.Some? ==> r.placeholder.hidden && !r.panel.hidden
    ensures r.slots == s.slots && r.inputs == s.inputs && r.button == s.button
  {
    match data
    case None => PlaceholderShown(s, NoAdvice)
    case Some(d) => s.(placeholder := s.placeholder.(hidden := true), panel := PanelFor(s, d))
  }

  /** What the result panel shows: the trimmed weather field or a dash, the
      outfit or its fallback, a chip per non-blank number field built from
      that field (not from the server's answer), and the two lists. */
  lemma RecommendationShown(s: FormState, d: RecommendationView)
    ensures var p := RecommendationRendered(s, Some(d)).panel;
            && p.weather == (if IsBlank(s.inputs.weather) then NoWeather else Strip(s.inputs.weather))
            && (p.temperature.hidden <==> IsBlank(s.inputs.temperature))
            && (!p.temperature.hidden ==> p.temperature.text == Strip(s.inputs.temperature) + Degrees)
            && (p.wind.hidden <==> IsBlank(s.inputs.wind))
            && (!p.wind.hidden ==> p.wind.text == Strip(s.inputs.wind) + WindUnit)
            && p.accessories == Listed(d.accessories) && p.tips == Listed(d.tips)
  {
  }

  /** The text of an error entry, empty when the entry is missing. */
  function ErrorText(errors: Option<map<string, string>>, key: string): string {
    if errors.Some? && key in errors.value then errors.value[key] else ""
  }

  /** The placeholder message after a failed response: `errors.general`, else
      `errors.weather`, else the generic guidance. */
  function FailureMessage(errors: Option<map<string, string>>): (m: string)
    ensures m != ""
    ensures ErrorText(errors, General) != "" ==> m == ErrorText(errors, General)
    ensures ErrorText(errors, General) == "" && ErrorText(errors, WeatherKey) != "" ==> m == ErrorText(errors, WeatherKey)
    ensures ErrorText(errors, General) == "" && ErrorText(errors, WeatherKey) == "" ==> m == CheckInput
  {
    if ErrorText(errors, General) != "" then ErrorText(errors, General)
    else if ErrorText(errors, WeatherKey) != "" then ErrorText(errors, WeatherKey)
    else CheckInput
  }

  /** The submit handler before the request: slots cleared, button busy. */
  function SubmitStarted(s: FormState): (r: FormState)
    ensures r.button == Button(true, BusyLabel)
    ensures r.slots.Keys == s.slots.Keys
    ensures forall k :: k in r.slots ==> r.slots[k] == ""
    ensures r == s.(slots := r.slots, button := r.button)
  {
    Loading(ErrorsCleared(s), true)
  }

  /** The submit handler after the request, `finally` included: the button
      is enabled again on every path, and the form fields are not touched. */
  function SubmitFinished(s: FormState, outcome: SubmitOutcome): (r: FormState)
    ensures r.button == Button(false, IdleLabel)
    ensures r.slots.Keys == s.slots.Keys
    ensures r.inputs == s.inputs
  {
    var settled := match outcome
      case Thrown =>
        PlaceholderShown(ErrorsShown(s, map[General := NetworkFailure]), NetworkFailure)
      case Responded(ok, success, data, errors) =>
        if !ok || !success then
          PlaceholderShown(ErrorsShown(s, errors.GetOr(map[General := RequestFailed])), FailureMessage(errors))
        else RecommendationRendered(s, data);
    Loading(settled, false)
  }

  /** A failed response with an error object shows the placeholder, hides the
      panel, writes each error entry that has a slot to that slot, leaves the
      other slots empty, and picks the message general-then-weather. */
  lemma SubmitFailure(s: FormState, outcome: SubmitOutcome)
    requires outcome.Responded? && (!outcome.ok || !outcome.success) && outcome.errors.Some?
    ensures var r := SubmitFinished(SubmitStarted(s), outcome);
            && r.placeholder == Placeholder(false, FailureMessage(outcome.errors)) && r.panel.hidden
            && r.slots.Keys == s.slots.Keys
            && (forall k :: k in r.slots ==>
                  r.slots[k] == if k != General && k in outcome.errors.value then outcome.errors.value[k] else "")
  {
    var started := SubmitStarted(s);
    var shown := ErrorsShown(started, outcome.errors.value);
    assert SubmitFinished(started, outcome) == Loading(PlaceholderShown(shown, FailureMessage(outcome.errors)), false);
  }

  /** A failed response without an error object writes the "request failed"
      text through `displayErrors`, but the placeholder then shows the
      generic guidance, and every slot stays empty. */
  lemma SubmitFailureWithoutErrors(s: FormState, ok: bool, success: bool, data: Option<RecommendationView>)
    requires !ok || !success
    ensures var r := SubmitFinished(SubmitStarted(s), Responded(ok, success, data, None));
            && r.placeholder == Placeholder(false, CheckInput) && r.panel.hidden
            && (forall k :: k in r.slots ==> r.slots[k] == "")
  {
    var started := SubmitStarted(s);
    var shown := ErrorsShown(started, map[General := RequestFailed]);
    assert SubmitFinished(started, Responded(ok, success, data, None)) == Loading(PlaceholderShown(shown, CheckInput), false);
  }

  /** A thrown request shows the network message and leaves every slot empty. */
  lemma SubmitThrown(s: FormState)
    ensures var r := SubmitFinished(SubmitStarted(s), Thrown);
            && r.placeholder == Placeholder(false, NetworkFailure) && r.panel.hidden
            && (forall k :: k in r.slots ==> r.slots[k] == "")
  {
    var started := SubmitStarted(s);
    assert SubmitFinished(started, Thrown) == Loading(PlaceholderShown(ErrorsShown(started, map[General := NetworkFailure]), NetworkFailure), false);
  }

  /** A successful response shows the panel with the recommendation and
      leaves every slot empty. */
  lemma SubmitSuccess(s: FormState, data: RecommendationView)
    ensures var r := SubmitFinished(SubmitStarted(s), Responded(true, true, Some(data), None));
            && r.placeholder.hidden && !r.panel.hidden
            && (data.outfit.Some? && data.outfit.value != "" ==> r.panel.outfit == data.outfit.value)
            && r.panel == PanelFor(s, data)
            && (forall k :: k in r.slots ==> r.slots[k] == "")
  {
    var started := SubmitStarted(s);
    assert SubmitFinished(started, Responded(true, true, Some(data), None)) == Loading(RecommendationRendered(started, Some(data)), false);
  }

  /** The weather "晴" with blank temperature and wind, answered with the
      outfit "短袖": the body carries nulls, the outfit is shown and both
      chips are hidden. */
  lemma SunnyScenario(s: FormState)
    requires s.inputs == Inputs("晴", "", "")
    ensures NormalizePayload("晴", "", "") == Payload("晴", None, None)
    ensures var r := SubmitFinished(SubmitStarted(s), Responded(true, true, Some(RecommendationView(Some("短袖"), None, None)), None));
            && r.panel.outfit == "短袖" && r.panel.temperature.hidden && r.panel.wind.hidden
  {
    assert !IsSpace('晴');
    StripTrimmed("晴");
    assert IsBlank("");
    SubmitSuccess(s, RecommendationView(Some("短袖"), None, None));
  }

  /** A 400 answer whose only error is on the weather field: the weather slot
      shows it, and so does the placeholder, because `errors.weather` is the
      second choice for the placeholder text; the generic guidance is only
      the last resort. */
  lemma WeatherErrorScenario(s: FormState)
    requires WeatherKey in s.slots
    ensures var errors := map[WeatherKey := "请输入天气"];
            var r := SubmitFinished(SubmitStarted(s), Responded(false, false, None, Some(errors)));
            && r.slots[WeatherKey] == "请输入天气"
            && r.placeholder == Placeholder(false, "请输入天气")
            && r.panel.hidden
  {
    var errors := map[WeatherKey := "请输入天气"];
    SubmitFailure(s, Responded(false, false, None, Some(errors)));
    assert ErrorText(Some(errors), General) == "";
  }

  // ---------------------------------------------------------------------
  // Forecast flow

  /** `updateForecastStatus(message, isError)`: a no-op without a status line. */
  function StatusUpdated(s: ForecastState, message: string, isError: bool): (r: ForecastState)
    ensures s.page.hasForecast ==> r == s.(status := Status(message, isError))
    ensures !s.page.hasForecast ==> r == s
  {
    if !s.page.hasForecast then s else s.(status := Status(message, isError))
  }

  /** Sets the refresh button's disabled flag when the button exists. */
  function RefreshSet(s: ForecastState, disabled: bool): (r: ForecastState)
    ensures s.page.hasRefresh ==> r == s.(refreshDisabled := disabled)
    ensures !s.page.hasRefresh ==> r == s
  {
    if s.page.hasRefresh then s.(refreshDisabled := disabled) else s
  }

  /** `requestAutoForecast(isRetry)` up to the geolocation call: the list
      hidden, the refresh button disabled, the locating text shown. */
  function ForecastRequested(s: ForecastState, isRetry: bool): (r: ForecastState)
    ensures !s.page.hasForecast || !s.page.hasGeolocation ==> r == s
    ensures s.page.hasForecast && s.page.hasGeolocation ==>
      && r.listHidden
      && r.status == Status(if isRetry then Relocating else Locating, false)
      && (s.page.hasRefresh ==> r.refreshDisabled)
      && r.items == s.items && r.page == s.page
  {
    if !s.page.hasForecast || !s.page.hasGeolocation then s
    else RefreshSet(StatusUpdated(s.(listHidden := true), if isRetry then Relocating else Locating, false), true)
  }

  /** `initAutoForecast()`: without geolocation, the unsupported text as an
      error and the refresh button disabled; otherwise the first request. */
  function AutoForecastStarted(s: ForecastState): (r: ForecastState)
    ensures !s.page.hasForecast ==> r == s
    ensures s.page.hasForecast && !s.page.hasGeolocation ==>
      r.status == Status(Unsupported, true) && (s.page.hasRefresh ==> r.refreshDisabled)
    ensures s.page.hasForecast && s.page.hasGeolocation ==> r == ForecastRequested(s, false)
  {
    if !s.page.hasForecast then s
    else if !s.page.hasGeolocation then RefreshSet(StatusUpdated(s, Unsupported, true), true)
    else ForecastRequested(s, false)
  }

  /** Without geolocation, no request ever changes the forecast region after
      start-up: the refresh button stays disabled. */
  lemma UnsupportedIsFinal(s: ForecastState, isRetry: bool)
    requires s.page.hasForecast && !s.page.hasGeolocation
    ensures var r := AutoForecastStarted(s);
            ForecastRequested(r, isRetry) == r && (s.page.hasRefresh ==> r.refreshDisabled)
  {
  }

  /** The geolocation error callback. */
  function LocationFailed(s: ForecastState, denied: bool): (r: ForecastState)
    ensures s.page.hasForecast ==> r.status == Status(if denied then LocateDenied else LocateFailed, true)
    ensures s.page.hasRefresh ==> !r.refreshDisabled
    ensures r.listHidden == s.listHidden && r.items == s.items
  {
    RefreshSet(StatusUpdated(s, if denied then LocateDenied else LocateFailed, true), false)
  }

  /** `fetchAutoForecast` up to the request. */
  function ForecastFetching(s: ForecastState): (r: ForecastState)
    ensures s.page.hasForecast ==> r == s.(status := Status(Fetching, false))
    ensures !s.page.hasForecast ==> r == s
  {
    StatusUpdated(s, Fetching, false)
  }

  /** The items of the forecast list, one per day, in order. */
  function ItemsOf(days: seq<ForecastDayView>): seq<ForecastItem> {
    MapSeq(ItemText, days)
  }

  /** `xs` with `f` applied to every element, in order. */
  function MapSeq<A, B>(f: A -> B, xs: seq<A>): (ys: seq<B>)
    ensures |ys| == |xs|
  {
    seq(|xs|, i requires 0 <= i < |xs| => f(xs[i]))
  }

  /** One more element of the prefix gives one more mapped element. */
  lemma MapSeqPrefix<A, B>(f: A -> B, xs: seq<A>, n: nat)
    requires n < |xs|
    ensures MapSeq(f, xs[..n + 1]) == MapSeq(f, xs[..n]) + [f(xs[n])]
  {
    var l := MapSeq(f, xs[..n + 1]);
    var r := MapSeq(f, xs[..n]) + [f(xs[n])];
    forall i | 0 <= i < |l| ensures l[i] == r[i] {
      assert xs[..n + 1][i] == xs[i];
      if i < n {
        assert xs[..n][i] == xs[i];
      }
    }
  }

  /** `renderForecastDays(data)`. */
  function ForecastRendered(s: ForecastState, data: Option<ForecastView>): (r: ForecastState)
    ensures !s.page.hasForecast ==> r == s
    ensures s.page.hasForecast && (data.None? || data.value.days.None? || data.value.days.value == []) ==>
      r.items == [] && r.listHidden && r.status == Status(NoForecast, true)
    ensures s.page.hasForecast && data.Some? && data.value.days.Some? && data.value.days.value != [] ==>
      && r.items == ItemsOf(data.value.days.value) && !r.listHidden && !r.status.isError
      && var tz := data.value.timezone;
         r.status.text == if tz.Some? && tz.value != "" then ForecastReadyIn(tz.value) else ForecastReady
    ensures r.refreshDisabled == s.refreshDisabled && r.page == s.page
  {
    if !s.page.hasForecast then s
    else if data.None? || data.value.days.None? || data.value.days.value == [] then
      StatusUpdated(s.(items := []), NoForecast, true).(listHidden := true)
    else
      var tz := data.value.timezone;
      StatusUpdated(s.(items := ItemsOf(data.value.days.value), listHidden := false),
                    if tz.Some? && tz.value != "" then ForecastReadyIn(tz.value) else ForecastReady, false)
  }

  /** The text of a failed forecast response: `errors.general` or the
      service-unavailable text. */
  function FetchFailureMessage(general: Option<string>): (m: string)
    ensures m != ""
    ensures general.Some? && general.value != "" ==> m == general.value
    ensures general.None? || general.value == "" ==> m == ServiceDown
  {
    if general.Some? && general.value != "" then general.value else ServiceDown
  }

  /** `fetchAutoForecast` after the request, `finally` included: the refresh
      button is enabled again on every path. */
  function ForecastFetched(s: ForecastState, outcome: FetchOutcome): (r: ForecastState)
    ensures !s.page.hasForecast ==> r == s
    ensures s.page.hasForecast && s.page.hasRefresh ==> !r.refreshDisabled
    ensures s.page.hasForecast && outcome.FetchResponded? && outcome.ok && outcome.success ==>
      r == RefreshSet(ForecastRendered(s, outcome.data), false)
    ensures s.page.hasForecast && outcome.FetchThrown? ==>
      r.status == Status(FetchFailed, true) && r.items == s.items && r.listHidden == s.listHidden
    ensures s.page.hasForecast && outcome.FetchResponded? && (!outcome.ok || !outcome.success) ==>
      r.status == Status(FetchFailureMessage(outcome.general), true) && r.items == s.items && r.listHidden == s.listHidden
  {
    if !s.page.hasForecast then s
    else
      var settled := match outcome
        case FetchThrown => StatusUpdated(s, FetchFailed, true)
        case FetchResponded(ok, success, data, general) =>
          if !ok || !success then StatusUpdated(s, FetchFailureMessage(general), true)
          else ForecastRendered(s, data);
      RefreshSet(settled, false)
  }

  /** A whole forecast attempt that does not end with days on screen leaves
      the list hidden, an error status and the refresh button enabled. */
  lemma ForecastAttemptFails(s: ForecastState, isRetry: bool, outcome: FetchOutcome)
    requires s.page.hasForecast && s.page.hasGeolocation
    requires || outcome.FetchThrown? || !outcome.ok || !outcome.success
             || outcome.data.None? || outcome.data.value.days.None? || outcome.data.value.days.value == []
    ensures var r := ForecastFetched(ForecastFetching(ForecastRequested(s, isRetry)), outcome);
            r.listHidden && r.status.isError && (s.page.hasRefresh ==> !r.refreshDisabled)
  {
  }

  /** A whole forecast attempt that receives days shows one item per day, in
      order, with a success status and the refresh button enabled. */
  lemma ForecastAttemptSucceeds(s: ForecastState, isRetry: bool, days: seq<ForecastDayView>, timezone: Option<string>)
    requires s.page.hasForecast && s.page.hasGeolocation && days != []
    ensures var r := ForecastFetched(ForecastFetching(ForecastRequested(s, isRetry)),
                                     FetchResponded(true, true, Some(ForecastView(Some(days), timezone)), None));
            && !r.listHidden && !r.status.isError && (s.page.hasRefresh ==> !r.refreshDisabled)
            && |r.items| == |days|
            && (forall i :: 0 <= i < |days| ==> r.items[i] == ItemText(days[i]))
  {
  }

  /** A denied or failed geolocation lookup after a request ends with the
      list hidden, the matching error text and the refresh button enabled. */
  lemma LocationAttemptFails(s: ForecastState, isRetry: bool, denied: bool)
    requires s.page.hasForecast && s.page.hasGeolocation
    ensures var r := LocationFailed(ForecastRequested(s, isRetry), denied);
            && r.listHidden
            && r.status == Status(if denied then LocateDenied else LocateFailed, true)
            && (s.page.hasRefresh ==> !r.refreshDisabled)
  {
  }

  // ---------------------------------------------------------------------
  // The page

  /** A list element and the block that wraps it. */
  class ListView {
    var entries: seq<string>
    var hidden: bool

    function State(): ListState
      reads this
    {
      ListState(entries, hidden)
    }

    constructor ()
      ensures State() == ListState([], true)
    {
      entries := [];
      hidden := true;
    }

    /** `renderList`: the list emptied, then one entry per item in order.
        The new state does not depend on the old one, so rendering the same
        items twice leaves the same list. */
    method Render(items: Option<seq<string>>)
      modifies this
      ensures State() == Listed(items)
    {
      entries := [];
      if items.None? || |items.value| == 0 {
        hidden := true;
        return;
      }
      var i := 0;
      while i < |items.value|
        invariant 0 <= i <= |items.value|
        invariant entries == items.value[..i]
      {
        entries := entries + [items.value[i]];
        i := i + 1;
      }
      hidden := false;
    }
  }

  /** The recommendation form, its error slots, the placeholder and the
      result panel. */
  class RecommendationForm {
    var weatherInput: string
    var temperatureInput: string
    var windInput: string
    var placeholderHidden: bool
    var placeholderMessage: string
    var slots: map<string, string>
    var submitDisabled: bool
    var submitLabel: string
    var panelHidden: bool
    var summaryWeather: string
    var summaryTemperature: Chip
    var summaryWind: Chip
    var outfit: string
    const accessories: ListView
    const tips: ListView

    /** The two lists are distinct elements. */
    predicate Valid()
      reads this
    {
      accessories != tips
    }

    function State(): FormState
      reads this, accessories, tips
    {
      FormState(
        Inputs(weatherInput, temperatureInput, windInput),
        Placeholder(placeholderHidden, placeholderMessage),
        slots,
        Button(submitDisabled, submitLabel),
        Panel(panelHidden, summaryWeather, summaryTemperature, summaryWind, outfit, accessories.State(), tips.State()))
    }

    /** A freshly loaded form: the placeholder shown, every registered slot
        empty, the button idle. */
    constructor (slotKeys: set<string>)
      ensures Valid() && fresh(accessories) && fresh(tips)
      ensures State().slots == map k | k in slotKeys :: ""
      ensures !State().placeholder.hidden && State().panel.hidden
      ensures State().button == Button(false, IdleLabel)
    {
      weatherInput, temperatureInput, windInput := "", "", "";
      placeholderHidden, placeholderMessage := false, "";
      slots := map k | k in slotKeys :: "";
      submitDisabled, submitLabel := false, IdleLabel;
      panelHidden := true;
      summaryWeather := "";
      summaryTemperature, summaryWind := Chip("", true), Chip("", true);
      outfit := "";
      accessories := new ListView();
      tips := new ListView();
    }

    /** `clearErrors`, one slot at a time. */
    method ClearErrors()
      modifies this
      ensures State() == ErrorsCleared(old(State()))
    {
      var cleared := slots;
      var pending := slots.Keys;
      while pending != {}
        invariant pending <= cleared.Keys == slots.Keys
        invariant forall k :: k in cleared ==> cleared[k] == if k in pending then slots[k] else ""
        decreases pending
      {
        var key :| key in pending;
        cleared := cleared[key := ""];
        pending := pending - {key};
      }
      slots := cleared;
    }

    /** `displayErrors(errors)`, one entry at a time. */
    method DisplayErrors(errors: map<string, string>)
      modifies this
      ensures State() == ErrorsShown(old(State()), errors)
    {
      var shown, message := ErrorEntries(slots, placeholderMessage, errors);
      slots := shown;
      placeholderMessage := message;
    }

    /** The loop of `displayErrors` over the entries of `errors`, in any
        order: the slots and the placeholder message it leaves. */
    static method ErrorEntries(slots: map<string, string>, placeholderMessage: string, errors: map<string, string>)
      returns (shown: map<string, string>, message: string)
      ensures shown == SlotsShown(slots, errors)
      ensures message == if General in errors then errors[General] else placeholderMessage
    {
      shown := slots;
      message := placeholderMessage;
      var pending := errors.Keys;
      while pending != {}
        invariant pending <= errors.Keys
        invariant shown == SlotsShown(slots, Visited(errors, pending))
        invariant message == if General in errors && General !in pending then errors[General] else placeholderMessage
        decreases pending
      {
        var key :| key in pending;
        ghost var before := Visited(errors, pending);
        if key == General {
          message := errors[key];
        } else if key in shown {
          shown := shown[key := errors[key]];
        }
        pending := pending - {key};
        ghost var after := Visited(errors, pending);
        assert after == before[key := errors[key]];
        SlotsShownStep(slots, before, key, errors[key]);
      }
      assert errors == Visited(errors, pending);
    }

    /** `showPlaceholder(message)`. */
    method ShowPlaceholder(message: string)
      modifies this
      ensures State() == PlaceholderShown(old(State()), message)
    {
      placeholderHidden := false;
      panelHidden := true;
      placeholderMessage := message;
    }

    /** `toggleLoading(on)`. */
    method ToggleLoading(on: bool)
      modifies this
      ensures State() == Loading(old(State()), on)
    {
      submitDisabled := on;
      submitLabel := if on then BusyLabel else IdleLabel;
    }

    /** `renderRecommendation(data)`. */
    method RenderRecommendation(data: Option<RecommendationView>)
      requires Valid()
      modifies this, accessories, tips
      ensures State() == RecommendationRendered(old(State()), data)
    {
      if data.None? {
        ShowPlaceholder(NoAdvice);
      } else {
        ShowRecommendation(data.value);
      }
    }

    /** The branch of `renderRecommendation` that has a recommendation. */
    method ShowRecommendation(d: RecommendationView)
      requires Valid()
      modifies this, accessories, tips
      ensures State() == RecommendationRendered(old(State()), Some(d))
    {
      ghost var p := PanelFor(State(), d);
      ShowLists(d);
      ShowSummary();
      placeholderHidden := true;
      panelHidden := false;
      outfit := if d.outfit.Some? && d.outfit.value != "" then d.outfit.value else NoOutfit;
      assert State().panel == p;
    }

    /** The accessory and tip lists of a recommendation. */
    method ShowLists(d: RecommendationView)
      requires Valid()
      modifies accessories, tips
      ensures accessories.State() == Listed(d.accessories) && tips.State() == Listed(d.tips)
    {
      accessories.Render(d.accessories);
      tips.Render(d.tips);
    }

    /** The summary line of `renderRecommendation`, built from the form
        fields. */
    method ShowSummary()
      modifies this`summaryWeather, this`summaryTemperature, this`summaryWind
      ensures summaryWeather == WeatherSummary(weatherInput)
      ensures summaryTemperature == ChipFor(old(summaryTemperature), temperatureInput, Degrees)
      ensures summaryWind == ChipFor(old(summaryWind), windInput, WindUnit)
    {
      var weather := Strip(weatherInput);
      summaryWeather := if weather == "" then NoWeather else weather;
      var temperature := Strip(temperatureInput);
      var wind := Strip(windInput);
      if temperature != "" {
        summaryTemperature := Chip(temperature + Degrees, false);
      } else {
        summaryTemperature := summaryTemperature.(hidden := true);
      }
      if wind != "" {
        summaryWind := Chip(wind + WindUnit, false);
      } else {
        summaryWind := summaryWind.(hidden := true);
      }
    }

    /** The submit handler up to the request: returns the body it posts. */
    method BeginSubmit() returns (payload: Payload)
      modifies this
      ensures payload == NormalizePayload(old(weatherInput), old(temperatureInput), old(windInput))
      ensures State() == SubmitStarted(old(State()))
    {
      ClearErrors();
      ToggleLoading(true);
      payload := NormalizePayload(weatherInput, temperatureInput, windInput);
    }

    /** The submit handler after the request, for each way it can end. */
    method FinishSubmit(outcome: SubmitOutcome)
      requires Valid()
      modifies this, accessories, tips
      ensures State() == SubmitFinished(old(State()), outcome)
    {
      match outcome {
        case Thrown =>
          DisplayErrors(map[General := NetworkFailure]);
          ShowPlaceholder(NetworkFailure);
        case Responded(ok, success, data, errors) =>
          if !ok || !success {
            DisplayErrors(errors.GetOr(map[General := RequestFailed]));
            ShowPlaceholder(FailureMessage(errors));
          } else {
            RenderRecommendation(data);
          }
      }
      ToggleLoading(false);
    }
  }

  /** The forecast region: the status line, the list and the refresh button. */
  class ForecastPanel {
    const page: Page
    var items: seq<ForecastItem>
    var listHidden: bool
    var statusText: string
    var statusError: bool
    var refreshDisabled: bool

    function State(): ForecastState
      reads this
    {
      ForecastState(page, items, listHidden, Status(statusText, statusError), refreshDisabled)
    }

    constructor (page: Page)
      ensures State() == ForecastState(page, [], false, Status("", false), false)
    {
      this.page := page;
      items, listHidden := [], false;
      statusText, statusError := "", false;
      refreshDisabled := false;
    }

    /** `updateForecastStatus(message, isError)`. */
    method UpdateForecastStatus(message: string, isError: bool)
      modifies this
      ensures State() == StatusUpdated(old(State()), message, isError)
    {
      if !page.hasForecast {
        return;
      }
      statusText := message;
      statusError := isError;
    }

    /** `initAutoForecast()`. */
    method InitAutoForecast()
      modifies this
      ensures State() == AutoForecastStarted(old(State()))
    {
      if !page.hasForecast {
        return;
      }
      if !page.hasGeolocation {
        UpdateForecastStatus(Unsupported, true);
        if page.hasRefresh {
          refreshDisabled := true;
        }
        return;
      }
      RequestAutoForecast(false);
    }

    /** `requestAutoForecast(isRetry)` up to the geolocation call. */
    method RequestAutoForecast(isRetry: bool)
      modifies this
      ensures State() == ForecastRequested(old(State()), isRetry)
    {
      if !page.hasForecast || !page.hasGeolocation {
        return;
      }
      listHidden := true;
      UpdateForecastStatus(if isRetry then Relocating else Locating, false);
      if page.hasRefresh {
        refreshDisabled := true;
      }
    }

    /** The geolocation error callback; `denied` is a permission refusal. */
    method OnLocateError(denied: bool)
      modifies this
      ensures State() == LocationFailed(old(State()), denied)
    {
      var message := LocateFailed;
      if denied {
        message := LocateDenied;
      }
      UpdateForecastStatus(message, true);
      if page.hasRefresh {
        refreshDisabled := false;
      }
    }

    /** `fetchAutoForecast` up to the request, once coordinates are known. */
    method BeginFetch()
      modifies this
      ensures State() == ForecastFetching(old(State()))
    {
      UpdateForecastStatus(Fetching, false);
    }

    /** `fetchAutoForecast` after the request, for each way it can end. */
    method FinishFetch(outcome: FetchOutcome)
      modifies this
      ensures State() == ForecastFetched(old(State()), outcome)
    {
      if !page.hasForecast {
        return;
      }
      match outcome {
        case FetchThrown =>
          UpdateForecastStatus(FetchFailed, true);
        case FetchResponded(ok, success, data, general) =>
          if !ok || !success {
            UpdateForecastStatus(FetchFailureMessage(general), true);
          } else {
            RenderForecastDays(data);
          }
      }
      if page.hasRefresh {
        refreshDisabled := false;
      }
    }

    /** The `forEach` of `renderForecastDays`: one item per day, in order. */
    static method ForecastItems(days: seq<ForecastDayView>) returns (appended: seq<ForecastItem>)
      ensures appended == ItemsOf(days)
    {
      appended := [];
      var i := 0;
      while i < |days|
        invariant 0 <= i <= |days|
        invariant appended == ItemsOf(days[..i])
      {
        MapSeqPrefix(ItemText, days, i);
        appended := appended + [ItemText(days[i])];
        i := i + 1;
      }
      assert days[..i] == days;
    }

    /** `renderForecastDays(data)`: one item appended per day. */
    method RenderForecastDays(data: Option<ForecastView>)
      modifies this
      ensures State() == ForecastRendered(old(State()), data)
    {
      if !page.hasForecast {
        return;
      }
      items := [];
      if data.None? || data.value.days.None? || |data.value.days.value| == 0 {
        UpdateForecastStatus(NoForecast, true);
        listHidden := true;
        return;
      }
      items := ForecastItems(data.value.days.value);
      listHidden := false;
      var tz := data.value.timezone;
      if tz.Some? && tz.value != "" {
        UpdateForecastStatus(ForecastReadyIn(tz.value), false);
      } else {
        UpdateForecastStatus(ForecastReady, false);
      }
    }
  }
}

=== FILE: outfit.dfy ===
/** The rule-based outfit recommender (weather_assistant.py): a weather word
    is normalised through an alias table to a category, the category's
    template is copied, and the copy is adjusted by temperature band and by
    wind-speed band. Temperatures and wind speeds are only compared with
    constants, so they are modelled as `real`. */
module Outfit {
  import opened Text

  /** `_RecommendationTemplate`: an immutable base suggestion. */
  datatype Template = Template(outfit: string, accessories: seq<string>, tips: seq<string>)

  /** `OutfitRecommendation`: the result handed to callers. */
  datatype Recommendation = Recommendation(outfit: string, accessories: seq<string>, tips: seq<string>)

  const EmptyWeather := "weather 不能为空"
  const InvalidNumber := "请输入有效的数字"

  // Texts added by the temperature and wind adjustments.
  const FreezingOutfit := "保暖羽绒服或厚呢大衣，内搭羊毛衫与保暖裤"
  const CoolOutfit := "针织衫或卫衣外搭中等厚度外套，下装长裤"
  const HotOutfit := "透气短袖或无袖上衣，搭配短裤或轻薄长裤"
  const FreezingTip := "室内外温差大时注意及时增减衣物"
  const CoolTip := "早晚偏凉，可准备一件轻薄内搭"
  const HotTip := "多喝水，避免长时间暴晒"
  const WarmTip := "气温较高，选择吸汗面料会更舒适"
  const MildTip := "气温适中，保持分层穿搭以便调节"
  const WarmHat := "保暖帽"
  const Scarf := "围巾"
  const ThinScarf := "薄围巾"
  const SunHat := "遮阳帽"
  const WindCoat := "防风外套"
  const StrongWindTip := "风力较大，外出时注意防风并保护好头部"
  const BreezeTip := "有明显风感，骑行或长时间户外活动时注意防风"

  /** `WeatherAssistant._ALIASES`. */
  const Aliases: map<string, string> := map[
    "晴" := "sunny", "晴天" := "sunny", "晴朗" := "sunny",
    "多云" := "cloudy", "阴" := "cloudy", "阴天" := "cloudy",
    "雨" := "rainy", "下雨" := "rainy", "小雨" := "rainy", "大雨" := "rainy",
    "雷阵雨" := "storm", "暴雨" := "storm",
    "雪" := "snowy", "下雪" := "snowy", "大雪" := "snowy", "小雪" := "snowy",
    "雾" := "foggy", "雾霾" := "foggy",
    "风" := "windy", "大风" := "windy", "沙尘" := "windy", "沙尘暴" := "windy"
  ]

  const DefaultTemplate := Template(
    "舒适的分层穿搭，如 T 恤配开衫",
    ["随身携带一件薄外套以防温差"],
    ["留意实时天气预报，适时增减衣物"])

  /** The templates built by `WeatherAssistant.__init__`. */
  const Templates: map<string, Template> := map[
    "sunny" := Template("轻薄长袖或短袖上衣，搭配舒适长裤或裙装",
                        ["太阳镜", "防晒霜"], ["中午紫外线较强时尽量戴帽子"]),
    "cloudy" := Template("薄外套配长裤，内搭透气上衣",
                         ["轻便运动鞋"], ["天气多变，出门前留意是否会转雨"]),
    "rainy" := Template("防水外套或带帽雨衣，搭配快干长裤",
                        ["雨伞", "防水鞋"], ["尽量避免穿布鞋，回家后及时烘干衣物"]),
    "storm" := Template("防水风衣加保暖内搭",
                        ["长筒雨靴", "防水背包"], ["尽量减少外出，注意雷电安全"]),
    "snowy" := Template("厚实羽绒服或呢大衣，内搭羊毛衫",
                        ["防滑雪地靴", "保暖手套"], ["外出前在鞋底贴防滑贴，注意路面结冰"]),
    "foggy" := Template("保暖外套配长裤",
                        ["口罩", "护目镜"], ["雾霾天尽量减少户外运动，回家及时清洁面部"]),
    "windy" := Template("防风外套配长裤", [Scarf], ["骑行或长时间户外活动时注意防风保暖"]),
    "default" := DefaultTemplate
  ]

  /** The categories an alias can name: every template except the fallback. */
  const Categories: set<string> := {"sunny", "cloudy", "rainy", "storm", "snowy", "foggy", "windy"}

  predicate Distinct(s: seq<string>) {
    forall i, j :: 0 <= i < j < |s| ==> s[i] != s[j]
  }

  // ---------------------------------------------------------------------
  // Normalisation and template choice

  /** `_normalize_weather`: strip, lower-case, then map through the alias table. */
  function NormalizeWeather(weather: string): (r: string)
    ensures Lower(Strip(weather)) in Aliases ==> r in Categories && r in Templates
    ensures Lower(Strip(weather)) !in Aliases ==> r == Lower(Strip(weather))
  {
    var key := Lower(Strip(weather));
    if key in Aliases then Aliases[key] else key
  }

  /** Normalising a normalised weather word changes nothing: every category
      is already stripped, lower-case and not itself an alias. */
  lemma NormalizeWeatherIdempotent(weather: string)
    ensures NormalizeWeather(NormalizeWeather(weather)) == NormalizeWeather(weather)
  {
    var key := Lower(Strip(weather));
    if key in Aliases {
      CategoryIsNormal(Aliases[key]);
    } else {
      LowerStripStable(weather);
    }
  }

  /** A category name is lower-case ASCII, so stripping and lower-casing
      keep it, and no alias (all of them Chinese) equals it. */
  lemma CategoryIsNormal(c: string)
    requires c in Categories
    ensures Lower(Strip(c)) == c && c !in Aliases
  {
    CategoriesAreAsciiWords(c);
    StripTrimmed(c);
    LowerOfLower(c);
    AliasesStartBeyondAscii();
  }

  predicate IsAsciiWord(s: string) {
    |s| > 0 && forall i :: 0 <= i < |s| ==> 'a' <= s[i] <= 'z'
  }

  lemma CategoriesAreAsciiWords(c: string)
    requires c in Categories
    ensures IsAsciiWord(c)
  {
  }

  lemma AliasesStartBeyondAscii()
    ensures forall k :: k in Aliases ==> |k| > 0 && k[0] > 'z'
  {
  }

  /** `self._templates.get(category, self._templates["default"])`. */
  function TemplateFor(category: string): (t: Template)
    ensures category in Templates ==> t == Templates[category]
    ensures category !in Templates ==> t == Templates["default"]
  {
    if category in Templates then Templates[category] else DefaultTemplate
  }

  /** A known alias selects its own category's template; a word that is
      neither an alias nor a category falls back to the default template. */
  lemma TemplateChoice(weather: string)
    ensures Lower(Strip(weather)) in Aliases ==>
      TemplateFor(NormalizeWeather(weather)) == Templates[Aliases[Lower(Strip(weather))]]
    ensures Lower(Strip(weather)) !in Aliases && Lower(Strip(weather)) !in Templates ==>
      TemplateFor(NormalizeWeather(weather)) == DefaultTemplate
  {
  }

  // ---------------------------------------------------------------------
  // Temperature bands

  datatype TemperatureBand = Freezing | Cool | Hot | Warm | Mild

  /** The band `_adjust_by_temperature` selects; its tests run in the order
      <= 5, <= 15, >= 28, >= 22, otherwise. */
  function Band(t: real): (b: TemperatureBand)
    ensures b == Freezing <==> t <= 5.0
    ensures b == Cool <==> 5.0 < t <= 15.0
    ensures b == Hot <==> t >= 28.0
    ensures b == Warm <==> 22.0 <= t < 28.0
    ensures b == Mild <==> 15.0 < t < 22.0
  {
    if t <= 5.0 then Freezing
    else if t <= 15.0 then Cool
    else if t >= 28.0 then Hot
    else if t >= 22.0 then Warm
    else Mild
  }

  function BandTip(b: TemperatureBand): string {
    match b
    case Freezing => FreezingTip
    case Cool => CoolTip
    case Hot => HotTip
    case Warm => WarmTip
    case Mild => MildTip
  }

  /** The replacement outfit of a band, if the band replaces it. */
  function BandOutfit(b: TemperatureBand): Option<string> {
    match b
    case Freezing => Some(FreezingOutfit)
    case Cool => Some(CoolOutfit)
    case Hot => Some(HotOutfit)
    case _ => None
  }

  /** The accessories a band appends, each guarded by a membership test
      (the freezing band guards the scarf as well as the hat). */
  function BandAdditions(b: TemperatureBand, accessories: seq<string>): seq<string> {
    match b
    case Freezing =>
      if WarmHat in accessories then []
      else [WarmHat] + (if Scarf in accessories then [] else [Scarf])
    case Cool => if ThinScarf in accessories then [] else [ThinScarf]
    case Hot => if SunHat in accessories then [] else [SunHat]
    case _ => []
  }

  /** The freezing-band additions as weather_assistant.py writes them: only
      the hat is tested, and the hat and the scarf are appended together. */
  function BandAdditionsAsWritten(b: TemperatureBand, accessories: seq<string>): seq<string> {
    match b
    case Freezing => if WarmHat in accessories then [] else [WarmHat, Scarf]
    case _ => BandAdditions(b, accessories)
  }

  lemma AppendAbsentKeepsDistinct(s: seq<string>, extra: seq<string>)
    requires Distinct(extra)
    requires forall x :: x in extra ==> x !in s
    ensures Distinct(s) ==> Distinct(s + extra)
  {
    if Distinct(s) {
      forall i, j | 0 <= i < j < |s + extra|
        ensures (s + extra)[i] != (s + extra)[j]
      {
        if j >= |s| && i < |s| {
          assert (s + extra)[j] in extra;
        }
      }
    }
  }

  /** `_adjust_by_temperature` on values. */
  function WithTemperature(t: real, r: Recommendation): (r': Recommendation)
    ensures |r'.tips| == |r.tips| + 1 && r'.tips[..|r.tips|] == r.tips
    ensures r'.tips[|r.tips|] == BandTip(Band(t))
    ensures t <= 5.0 ==> r'.outfit == FreezingOutfit && WarmHat in r'.accessories
    ensures 5.0 < t <= 15.0 ==> r'.outfit == CoolOutfit && ThinScarf in r'.accessories
    ensures t >= 28.0 ==> r'.outfit == HotOutfit && SunHat in r'.accessories
    ensures 15.0 < t < 28.0 ==> r'.outfit == r.outfit && r'.accessories == r.accessories
    ensures |r'.accessories| >= |r.accessories| && r'.accessories[..|r.accessories|] == r.accessories
    ensures t <= 5.0 ==> forall x :: x in r'.accessories[|r.accessories|..] ==>
                                     (x == WarmHat || x == Scarf) && x !in r.accessories
    ensures t <= 5.0 && WarmHat !in r.accessories ==> Scarf in r'.accessories
    ensures t <= 5.0 && WarmHat !in r.accessories ==>
      r'.accessories == r.accessories + [WarmHat] + (if Scarf in r.accessories then [] else [Scarf])
    ensures t <= 5.0 && WarmHat in r.accessories ==> r'.accessories == r.accessories
    ensures 5.0 < t <= 15.0 ==> r'.accessories == r.accessories + (if ThinScarf in r.accessories then [] else [ThinScarf])
    ensures t >= 28.0 ==> r'.accessories == r.accessories + (if SunHat in r.accessories then [] else [SunHat])
    ensures Distinct(r.accessories) ==> Distinct(r'.accessories)
  {
    var b := Band(t);
    var added := BandAdditions(b, r.accessories);
    AppendAbsentKeepsDistinct(r.accessories, added);
    Recommendation(BandOutfit(b).GetOr(r.outfit), r.accessories + added, r.tips + [BandTip(b)])
  }

  /** `_adjust_by_temperature` as written. */
  function WithTemperatureAsWritten(t: real, r: Recommendation): Recommendation {
    var b := Band(t);
    Recommendation(BandOutfit(b).GetOr(r.outfit),
                   r.accessories + BandAdditionsAsWritten(b, r.accessories),
                   r.tips + [BandTip(b)])
  }

  /** The windy template already holds the scarf, so a freezing temperature
      appends it a second time in the code as written. */
  lemma ColdWindyDuplicatesScarf()
    ensures WithTemperatureAsWritten(0.0, AsRecommendation(Templates["windy"])).accessories
            == [Scarf, WarmHat, Scarf]
    ensures !Distinct(WithTemperatureAsWritten(0.0, AsRecommendation(Templates["windy"])).accessories)
  {
    var acc := WithTemperatureAsWritten(0.0, AsRecommendation(Templates["windy"])).accessories;
    assert acc == [Scarf, WarmHat, Scarf];
    assert acc[0] == acc[2];
  }

  /** Without a scarf already present, the guarded and the as-written
      adjustments agree. */
  lemma AsWrittenAgreesWithoutScarf(t: real, r: Recommendation)
    requires Scarf !in r.accessories
    ensures WithTemperatureAsWritten(t, r) == WithTemperature(t, r)
  {
  }

  // ---------------------------------------------------------------------
  // Wind bands

  /** `_adjust_by_wind` on values. */
  function WithWind(w: real, r: Recommendation): (r': Recommendation)
    ensures r'.outfit == r.outfit
    ensures |r'.tips| >= |r.tips| && r'.tips[..|r.tips|] == r.tips
    ensures |r'.accessories| >= |r.accessories| && r'.accessories[..|r.accessories|] == r.accessories
    ensures w >= 10.0 ==> |r'.tips| == |r.tips| + 1 && r'.tips[|r.tips|] == StrongWindTip
    ensures w >= 10.0 ==> WindCoat in r'.accessories
    ensures w >= 10.0 ==> |r'.accessories| == |r.accessories| + (if WindCoat in r.accessories then 0 else 1)
    ensures 5.0 <= w < 10.0 ==> r'.accessories == r.accessories && r'.tips == r.tips + [BreezeTip]
    ensures w < 5.0 ==> r' == r
    ensures Distinct(r.accessories) ==> Distinct(r'.accessories)
  {
    if w >= 10.0 then
      var added := if WindCoat in r.accessories then [] else [WindCoat];
      AppendAbsentKeepsDistinct(r.accessories, added);
      Recommendation(r.outfit, r.accessories + added, r.tips + [StrongWindTip])
    else if w >= 5.0 then
      Recommendation(r.outfit, r.accessories, r.tips + [BreezeTip])
    else r
  }

  // ---------------------------------------------------------------------
  // The whole recommendation

  /** The fresh lists `list(template.accessories)`, `list(template.tips)`. */
  function AsRecommendation(t: Template): (r: Recommendation)
    ensures r.outfit == t.outfit && r.accessories == t.accessories && r.tips == t.tips
  {
    Recommendation(t.outfit, t.accessories, t.tips)
  }

  /** `suggest_outfit` on values. */
  function Suggest(weather: string, temperature: Option<real>, wind: Option<real>): (r: Result<Recommendation>)
    ensures r.Err? <==> IsBlank(weather)
    ensures r.Err? ==> r.message == EmptyWeather
  {
    if weather == [] || Strip(weather) == [] then Err(EmptyWeather)
    else
      var base := AsRecommendation(TemplateFor(NormalizeWeather(weather)));
      var adjusted := if temperature.Some? then WithTemperature(temperature.value, base) else base;
      Ok(if wind.Some? then WithWind(wind.value, adjusted) else adjusted)
  }

  /** With neither temperature nor wind, the result is the chosen template. */
  lemma SuggestPlainIsTemplate(weather: string)
    requires !IsBlank(weather)
    ensures Suggest(weather, None, None) == Ok(AsRecommendation(TemplateFor(NormalizeWeather(weather))))
  {
  }

  /** Exactly one tip per temperature adjustment and one per noticeable wind. */
  lemma SuggestTipCount(weather: string, temperature: Option<real>, wind: Option<real>)
    requires !IsBlank(weather)
    ensures var base := TemplateFor(NormalizeWeather(weather));
            var r := Suggest(weather, temperature, wind);
            r.Ok? &&
            |r.value.tips| == |base.tips| + (if temperature.Some? then 1 else 0)
                              + (if wind.Some? && wind.value >= 5.0 then 1 else 0) &&
            r.value.tips[..|base.tips|] == base.tips
  {
    var base := AsRecommendation(TemplateFor(NormalizeWeather(weather)));
    var adjusted := if temperature.Some? then WithTemperature(temperature.value, base) else base;
    assert adjusted.tips[..|base.tips|] == base.tips;
    if wind.Some? {
      var r' := WithWind(wind.value, adjusted);
      assert r'.tips[..|base.tips|] == r'.tips[..|adjusted.tips|][..|base.tips|];
    }
  }

  lemma TemplatesDistinct(category: string)
    ensures Distinct(TemplateFor(category).accessories)
  {
  }

  /** No recommendation lists an accessory twice. */
  lemma SuggestDistinct(weather: string, temperature: Option<real>, wind: Option<real>)
    requires !IsBlank(weather)
    ensures Distinct(Suggest(weather, temperature, wind).value.accessories)
  {
    TemplatesDistinct(NormalizeWeather(weather));
  }

  /** Between 15 and 28 degrees the outfit and the accessories are the
      template's unless strong wind adds the windproof coat. */
  lemma SuggestMildKeepsOutfit(weather: string, t: real, wind: Option<real>)
    requires !IsBlank(weather) && 15.0 < t < 28.0
    requires wind.None? || wind.value < 10.0
    ensures var base := TemplateFor(NormalizeWeather(weather));
            var r := Suggest(weather, Some(t), wind).value;
            r.outfit == base.outfit && r.accessories == base.accessories
  {
  }

  // ---------------------------------------------------------------------
  // The imperative recommender

  /** The working copy `suggest_outfit` threads through the adjustments; the
      two adjustment methods update its lists in place. */
  class OutfitDraft {
    var outfit: string
    var accessories: seq<string>
    var tips: seq<string>

    /** Copies the template's tuples into fresh lists. */
    constructor FromTemplate(t: Template)
      ensures outfit == t.outfit && accessories == t.accessories && tips == t.tips
    {
      outfit := t.outfit;
      accessories := t.accessories;
      tips := t.tips;
    }

    function Value(): Recommendation
      reads this
    {
      Recommendation(outfit, accessories, tips)
    }

    /** `_adjust_by_temperature`. */
    method AdjustByTemperature(t: real)
      modifies this
      ensures Value() == WithTemperature(t, old(Value()))
    {
      if t <= 5.0 {
        outfit := FreezingOutfit;
        if WarmHat !in accessories {
          accessories := accessories + [WarmHat];
          if Scarf !in accessories {
            accessories := accessories + [Scarf];
          }
        }
        tips := tips + [FreezingTip];
      } else if t <= 15.0 {
        outfit := CoolOutfit;
        if ThinScarf !in accessories {
          accessories := accessories + [ThinScarf];
        }
        tips := tips + [CoolTip];
      } else if t >= 28.0 {
        outfit := HotOutfit;
        if SunHat !in accessories {
          accessories := accessories + [SunHat];
        }
        tips := tips + [HotTip];
      } else if t >= 22.0 {
        tips := tips + [WarmTip];
      } else {
        tips := tips + [MildTip];
      }
    }

    /** `_adjust_by_wind`. */
    method AdjustByWind(w: real)
      modifies this
      ensures Value() == WithWind(w, old(Value()))
    {
      if w >= 10.0 {
        if WindCoat !in accessories {
          accessories := accessories + [WindCoat];
        }
        tips := tips + [StrongWindTip];
      } else if w >= 5.0 {
        tips := tips + [BreezeTip];
      }
    }
  }

  /** `WeatherAssistant.suggest_outfit`: rejects a blank weather word, copies
      the chosen template and adjusts the copy; the templates are constants,
      so the copy leaves them as they were. */
  method SuggestOutfit(weather: string, temperature: Option<real>, wind: Option<real>)
    returns (r: Result<Recommendation>)
    ensures r == Suggest(weather, temperature, wind)
  {
    if weather == [] || Strip(weather) == [] {
      return Err(EmptyWeather);
    }
    var template := TemplateFor(NormalizeWeather(weather));
    var draft := new OutfitDraft.FromTemplate(template);
    if temperature.Some? {
      draft.AdjustByTemperature(temperature.value);
    }
    if wind.Some? {
      draft.AdjustByWind(wind.value);
    }
    r := Ok(draft.Value());
  }

  // ---------------------------------------------------------------------
  // Text output and number input

  const OutfitLabel := "推荐穿搭："
  const AccessoriesLabel := "建议搭配："
  const TipsLabel := "贴心提示："

  /** `OutfitRecommendation.format`. */
  function Format(r: Recommendation): (text: string)
    ensures OutfitLabel + r.outfit <= text
    ensures r.accessories == [] && r.tips == [] ==> text == OutfitLabel + r.outfit
    ensures r.accessories != [] ==> OutfitLabel + r.outfit + "\n" + AccessoriesLabel <= text
    ensures r.accessories == [] && r.tips != [] ==> OutfitLabel + r.outfit + "\n" + TipsLabel <= text
  {
    var lines := [OutfitLabel + r.outfit]
                 + (if r.accessories != [] then [AccessoriesLabel + Join(r.accessories, "、")] else [])
                 + (if r.tips != [] then [TipsLabel + Join(r.tips, "；")] else []);
    JoinStartsWithFirst(lines, "\n");
    Join(lines, "\n")
  }

  /** The formatted text reads back: its lines are the outfit line, then an
      accessories line exactly when there are accessories, then a tips line
      exactly when there are tips, and each list line splits back into its
      items. */
  lemma FormatReadsBack(r: Recommendation)
    requires '\n' !in r.outfit
    requires FreeOf(r.accessories, '\n') && FreeOf(r.accessories, '、')
    requires FreeOf(r.tips, '\n') && FreeOf(r.tips, '；')
    ensures var lines := Split(Format(r), '\n');
            && |lines| == 1 + (if r.accessories != [] then 1 else 0) + (if r.tips != [] then 1 else 0)
            && lines[0] == OutfitLabel + r.outfit
            && (r.accessories != [] ==>
                  AccessoriesLabel <= lines[1] &&
                  Split(lines[1][|AccessoriesLabel|..], '、') == r.accessories)
            && (r.tips != [] ==>
                  TipsLabel <= lines[|lines| - 1] &&
                  Split(lines[|lines| - 1][|TipsLabel|..], '；') == r.tips)
  {
    var accLine := AccessoriesLabel + Join(r.accessories, "、");
    var tipsLine := TipsLabel + Join(r.tips, "；");
    JoinFree(r.accessories, "、", '\n');
    JoinFree(r.tips, "；", '\n');
    var lines := [OutfitLabel + r.outfit]
                 + (if r.accessories != [] then [accLine] else [])
                 + (if r.tips != [] then [tipsLine] else []);
    assert FreeOf(lines, '\n');
    SplitJoin(lines, '\n');
    if r.accessories != [] {
      assert accLine[|AccessoriesLabel|..] == Join(r.accessories, "、");
      SplitJoin(r.accessories, '、');
    }
    if r.tips != [] {
      assert tipsLine[|TipsLabel|..] == Join(r.tips, "；");
      SplitJoin(r.tips, '；');
    }
  }

  /** `parse_optional_float`: blank text is no number, other text must be a
      decimal number. */
  function ParseOptionalFloat(value: string): (r: Result<Option<real>>)
    ensures r == Ok(None) <==> IsBlank(value)
    ensures r.Err? ==> r.message == InvalidNumber
    ensures r.Err? <==> !IsBlank(value) && ParseDecimal(Strip(value)).None?
    ensures !IsBlank(value) && ParseDecimal(Strip(value)).Some? ==> r == Ok(ParseDecimal(Strip(value)))
  {
    var v := Strip(value);
    if v == [] then Ok(None)
    else match ParseDecimal(v)
      case Some(x) => Ok(Some(x))
      case None => Err(InvalidNumber)
  }

  /** The text of an integer parses back to that integer. */
  lemma ParseOptionalFloatReadsIntegers(i: int)
    ensures ParseOptionalFloat(IntToString(i)) == Ok(Some(i as real))
  {
    var s := IntToString(i);
    assert !IsSpace(s[0]) && !IsSpace(s[|s| - 1]);
    StripTrimmed(s);
    ParseIntToString(i);
  }
}

=== FILE: server.dfy ===
/** The Flask application's request validation and forecast assembly
    (test.py): the field-keyed error map of `/api/recommend`, coordinate
    normalisation, safe extraction from the forecast service's parallel
    arrays, averaging of the daily extremes, and the assembly of up to seven
    forecast days behind `/api/auto-forecast`. The HTTP call to the forecast
    service is an input (`fetched`), and `describe_open_meteo_code` is a
    function parameter (`describe`). */
module Server {
  import opened Text
  import opened Outfit

  /** A decoded JSON value as Python holds it (`None`, `bool`, a number,
      `str`, `list`, `dict`). */
  datatype Json = Null | Bool(b: bool) | Num(n: real) | Str(s: string) | Arr(items: seq<Json>) | Obj(fields: map<string, Json>)

  /** The JSON envelope `{"success": ..., "data" | "errors": ...}`. */
  datatype Envelope<T> = Success(data: T) | Failure(errors: map<string, string>)

  /** A response body with its HTTP status. */
  datatype Response<T> = Response(status: int, body: Envelope<T>)

  /** One assembled forecast day. */
  datatype ForecastDay = ForecastDay(
    date: Json,
    weatherText: string,
    weatherCode: Option<int>,
    temperatureMax: Option<real>,
    temperatureMin: Option<real>,
    windSpeed: Option<real>,
    recommendation: Recommendation)

  /** The `data` of a successful `/api/auto-forecast` response. */
  datatype Forecast = Forecast(latitude: real, longitude: real, timezone: Option<Json>, days: seq<ForecastDay>)

  /** The five parallel arrays of the forecast service's `daily` object. */
  datatype Columns = Columns(dates: seq<Json>, codes: seq<Json>, maxTemps: seq<Json>, minTemps: seq<Json>, winds: seq<Json>)

  const WeatherMissing := "请输入天气描述"
  const LocationMissing := "未能获取定位信息"
  const LocationMalformed := "定位数据格式有误"
  const NoDailyData := "天气服务暂未提供未来七天天气数据。"
  const NoDays := "暂未获取到天气数据，请稍后重试。"
  /** Stands for Python's `str()` of a non-integral number, a list or a dict:
      like those texts it is not blank and names no alias or category. */
  const ReprText := "<repr>"

  /** `payload.get(key)`. */
  function Get(m: map<string, Json>, key: string): Option<Json> {
    if key in m then Some(m[key]) else None
  }

  /** Python's `float(value)`, `None` where it raises. */
  function PyFloat(v: Json): (r: Option<real>)
    ensures v.Num? ==> r == Some(v.n)
    ensures v.Bool? ==> r == Some(if v.b then 1.0 else 0.0)
    ensures v.Str? ==> r == ParseDecimal(Strip(v.s))
    ensures v.Null? || v.Arr? || v.Obj? ==> r.None?
  {
    match v
    case Bool(b) => Some(if b then 1.0 else 0.0)
    case Num(n) => Some(n)
    case Str(s) => ParseDecimal(Strip(s))
    case _ => None
  }

  /** Truncation toward zero, as Python's `int()` of a float. */
  function Truncate(x: real): (i: int)
    ensures 0.0 <= x ==> i as real <= x < i as real + 1.0
    ensures x < 0.0 ==> i as real - 1.0 < x <= i as real
  {
    if x >= 0.0 then x.Floor else -((-x).Floor)
  }

  /** An optionally signed run of decimal digits, as Python's `int(str)`
      accepts once the whitespace is stripped. */
  function ParseInteger(s: string): Option<int> {
    if s != [] && (s[0] == '-' || s[0] == '+') then
      if |s| > 1 && AllDigits(s[1..]) then
        Some(if s[0] == '-' then -(DigitsValue(s[1..]) as int) else DigitsValue(s[1..]))
      else None
    else if s != [] && AllDigits(s) then Some(DigitsValue(s))
    else None
  }

  /** `int(code_raw) if code_raw is not None else None`, `None` where `int` raises. */
  function PyInt(v: Json): (r: Option<int>)
    ensures v.Num? ==> r == Some(Truncate(v.n))
    ensures v.Bool? ==> r == Some(if v.b then 1 else 0)
    ensures v.Str? ==> r == ParseInteger(Strip(v.s))
    ensures v.Null? || v.Arr? || v.Obj? ==> r.None?
  {
    match v
    case Bool(b) => Some(if b then 1 else 0)
    case Num(n) => Some(Truncate(n))
    case Str(s) => ParseInteger(Strip(s))
    case _ => None
  }

  /** `int()` of an integer's decimal text gives that integer back. */
  lemma ParseIntegerReadsIntegers(i: int)
    ensures ParseInteger(IntToString(i)) == Some(i)
  {
    var n: nat := if i < 0 then -i else i;
    NatToStringValue(n);
    if i < 0 {
      var s := IntToString(i);
      assert s[1..] == NatToString(n);
    }
  }

  /** The text of an integer, as a JSON string or number, reads back
      through `int()`. */
  lemma PyIntReadsIntegers(i: int)
    ensures PyInt(Str(IntToString(i))) == Some(i)
    ensures PyInt(Num(i as real)) == Some(i)
  {
    var s := IntToString(i);
    var digits := NatToString(if i < 0 then -i else i);
    assert IsDigit(digits[0]) && IsDigit(digits[|digits| - 1]);
    assert s[|s| - 1] == digits[|digits| - 1];
    StripTrimmed(s);
    ParseIntegerReadsIntegers(i);
  }

  /** `str(payload.get("weather", ""))`. */
  function WeatherField(v: Option<Json>): string {
    match v
    case None => ""
    case Some(Str(s)) => s
    case Some(Null) => "None"
    case Some(Bool(b)) => if b then "True" else "False"
    case Some(Num(n)) => if n.Floor as real == n then IntToString(n.Floor) else ReprText
    case Some(_) => ReprText
  }

  // ---------------------------------------------------------------------
  // Normalisers

  /** `_normalize_maybe_number`: a missing or null value is no number,
      numbers (and booleans, which Python counts as integers) are kept, and
      everything else goes through `parse_optional_float(str(value))`. */
  function NormalizeMaybeNumber(v: Option<Json>): (r: Result<Option<real>>)
    ensures v.None? || v == Some(Null) ==> r == Ok(None)
    ensures v.Some? && v.value.Num? ==> r == Ok(Some(v.value.n))
    ensures v.Some? && v.value.Str? ==> r == ParseOptionalFloat(v.value.s)
    ensures v.Some? && v.value.Str? && IsBlank(v.value.s) ==> r == Ok(None)
    ensures v.Some? && v.value.Bool? ==> r == Ok(Some(if v.value.b then 1.0 else 0.0))
    ensures v.Some? && (v.value.Arr? || v.value.Obj?) ==> r == Err(InvalidNumber)
    ensures r.Err? ==> r.message == InvalidNumber
  {
    match v
    case None => Ok(None)
    case Some(Null) => Ok(None)
    case Some(Bool(b)) => Ok(Some(if b then 1.0 else 0.0))
    case Some(Num(n)) => Ok(Some(n))
    case Some(Str(s)) => ParseOptionalFloat(s)
    // str() of a list or a dict is never blank and never a number
    case Some(_) => Err(InvalidNumber)
  }

  /** `_normalize_coordinate`: a missing, null or empty value is "no
      location", a value `float` cannot convert is "malformed". */
  function NormalizeCoordinate(v: Option<Json>): (r: Result<real>)
    ensures r == Err(LocationMissing) <==> v.None? || v == Some(Null) || v == Some(Str(""))
    ensures r.Err? ==> r.message == LocationMissing || r.message == LocationMalformed
    ensures v.Some? && v.value.Num? ==> r == Ok(v.value.n)
    ensures v.Some? && (v.value.Arr? || v.value.Obj?) ==> r == Err(LocationMalformed)
    ensures v.Some? && v.value.Bool? ==> r == Ok(if v.value.b then 1.0 else 0.0)
    ensures v.Some? && v.value.Str? && v.value.s != "" ==>
      (r.Ok? <==> ParseDecimal(Strip(v.value.s)).Some?) &&
      (r.Ok? ==> r.value == ParseDecimal(Strip(v.value.s)).value)
  {
    if v.None? || v == Some(Null) || v == Some(Str("")) then Err(LocationMissing)
    else match PyFloat(v.value)
      case Some(x) => Ok(x)
      case None => Err(LocationMalformed)
  }

  /** `_safe_get_float`: Python indexing (negative indices count from the
      end), then `None` for a missing, null, empty or unconvertible entry. */
  function SafeGetFloat(values: seq<Json>, index: int): (r: Option<real>)
    ensures index >= |values| || index < -|values| ==> r.None?
    ensures 0 <= index < |values| && values[index].Num? ==> r == Some(values[index].n)
    ensures 0 <= index < |values| && (values[index].Null? || values[index] == Str("")) ==> r.None?
    ensures 0 <= index < |values| && values[index].Str? && values[index].s != "" ==>
      r == ParseDecimal(Strip(values[index].s))
    ensures 0 <= index < |values| && (values[index].Arr? || values[index].Obj?) ==> r.None?
    ensures 0 <= index < |values| && values[index].Bool? ==> r == Some(if values[index].b then 1.0 else 0.0)
    ensures r.Some? ==> -|values| <= index < |values|
  {
    if index < -|values| || index >= |values| then None
    else
      var v := values[if index < 0 then index + |values| else index];
      if v.Null? || v == Str("") then None else PyFloat(v)
  }

  /** A negative index counts from the end, as Python's `values[index]` does. */
  lemma SafeGetFloatFromEnd(values: seq<Json>, index: int)
    requires -|values| <= index < 0
    ensures SafeGetFloat(values, index) == SafeGetFloat(values, index + |values|)
  {
  }

  function Sum(xs: seq<real>): real {
    if xs == [] then 0.0 else xs[0] + Sum(xs[1..])
  }

  /** `_average_temperature`: the mean of the temperatures present. */
  function AverageTemperature(maxTemp: Option<real>, minTemp: Option<real>): (r: Option<real>)
    ensures r.None? <==> maxTemp.None? && minTemp.None?
    ensures maxTemp.Some? && minTemp.None? ==> r == maxTemp
    ensures maxTemp.None? && minTemp.Some? ==> r == minTemp
    ensures maxTemp.Some? && minTemp.Some? ==>
      r == Some((maxTemp.value + minTemp.value) / 2.0) &&
      (minTemp.value <= maxTemp.value ==> minTemp.value <= r.value <= maxTemp.value)
  {
    var temps := (if maxTemp.Some? then [maxTemp.value] else [])
                 + (if minTemp.Some? then [minTemp.value] else []);
    if temps == [] then None
    else
      var mean := Sum(temps) / |temps| as real;
      if maxTemp.Some? && minTemp.Some? then
        assert [minTemp.value][1..] == [];
        assert Sum([minTemp.value]) == minTemp.value;
        assert temps[1..] == [minTemp.value];
        assert |temps| == 2 && Sum(temps) == maxTemp.value + minTemp.value;
        Some(mean)
      else
        var only := if maxTemp.Some? then maxTemp.value else minTemp.value;
        assert temps == [only] && [only][1..] == [];
        assert Sum(temps) == only;
        assert mean == only;
        Some(mean)
  }

  // ---------------------------------------------------------------------
  // Forecast assembly

  /** `list(daily.get(key) or [])`. */
  function Column(daily: map<string, Json>, key: string): seq<Json> {
    if key !in daily then []
    else match daily[key]
      case Arr(xs) => xs
      case Str(s) => seq(|s|, i requires 0 <= i < |s| => Str([s[i]]))
      case _ => []
  }

  function ColumnsOf(daily: map<string, Json>): Columns {
    Columns(Column(daily, "time"), Column(daily, "weathercode"),
            Column(daily, "temperature_2m_max"), Column(daily, "temperature_2m_min"),
            Column(daily, "windspeed_10m_max"))
  }

  /** The weather code of day `index`, `None` (here `Null`) past the end of its array. */
  function CodeAt(c: Columns, index: nat): Json {
    if index < |c.codes| then c.codes[index] else Null
  }

  /** One iteration of the loop in `_build_forecast_days`: the day at
      `index`, or the error `suggest_outfit` raises for a blank category. */
  function DayAt(c: Columns, index: nat, describe: Json -> (string, string)): (r: Result<ForecastDay>)
    requires index < |c.dates|
    ensures r.Err? <==> IsBlank(describe(CodeAt(c, index)).0)
    ensures r.Err? ==> r.message == EmptyWeather
    ensures r.Ok? ==> r.value.date == c.dates[index]
    ensures r.Ok? ==> r.value.temperatureMax == SafeGetFloat(c.maxTemps, index)
    ensures r.Ok? ==> r.value.temperatureMin == SafeGetFloat(c.minTemps, index)
    ensures r.Ok? ==> r.value.windSpeed == SafeGetFloat(c.winds, index)
    ensures r.Ok? ==> r.value.weatherText == describe(CodeAt(c, index)).1
    ensures r.Ok? ==> r.value.weatherCode == PyInt(CodeAt(c, index))
    ensures r.Ok? && index >= |c.maxTemps| ==> r.value.temperatureMax.None?
    ensures r.Ok? && index >= |c.minTemps| ==> r.value.temperatureMin.None?
    ensures r.Ok? && index >= |c.winds| ==> r.value.windSpeed.None?
    ensures r.Ok? ==> Suggest(describe(CodeAt(c, index)).0,
                              AverageTemperature(r.value.temperatureMax, r.value.temperatureMin),
                              r.value.windSpeed) == Ok(r.value.recommendation)
  {
    var code := CodeAt(c, index);
    var described := describe(code);
    var maxTemp := SafeGetFloat(c.maxTemps, index);
    var minTemp := SafeGetFloat(c.minTemps, index);
    var wind := SafeGetFloat(c.winds, index);
    match Suggest(described.0, AverageTemperature(maxTemp, minTemp), wind)
    case Err(m) => Err(m)
    case Ok(rec) => Ok(ForecastDay(c.dates[index], described.1, PyInt(code), maxTemp, minTemp, wind, rec))
  }

  /** The body of the loop in `_build_forecast_days` for day `index`. */
  method BuildDay(c: Columns, index: nat, describe: Json -> (string, string)) returns (r: Result<ForecastDay>)
    requires index < |c.dates|
    ensures r == DayAt(c, index, describe)
  {
    var code := if index < |c.codes| then c.codes[index] else Null;
    var described := describe(code);
    var maxTemp := SafeGetFloat(c.maxTemps, index);
    var minTemp := SafeGetFloat(c.minTemps, index);
    var wind := SafeGetFloat(c.winds, index);
    var averaged := AverageTemperature(maxTemp, minTemp);
    var recommendation := SuggestOutfit(described.0, averaged, wind);
    if recommendation.Err? {
      return Err(recommendation.message);
    }
    r := Ok(ForecastDay(c.dates[index], described.1, PyInt(code), maxTemp, minTemp, wind, recommendation.value));
  }

  /** `_build_forecast_days`: rejects a `daily` that is not a dict, then
      appends one day per date among the first seven, stopping at the first
      day whose category `suggest_outfit` rejects. */
  method BuildForecastDays(daily: Option<Json>, describe: Json -> (string, string))
    returns (r: Result<seq<ForecastDay>>)
    ensures daily.None? || !daily.value.Obj? ==> r == Err(NoDailyData)
    ensures daily.Some? && daily.value.Obj? ==>
      var c := ColumnsOf(daily.value.fields);
      var n := Min(7, |c.dates|);
      && (r.Ok? <==> forall i :: 0 <= i < n ==> DayAt(c, i, describe).Ok?)
      && (r.Err? ==> r.message == EmptyWeather)
      && (r.Ok? ==> |r.value| == n && forall i :: 0 <= i < n ==> DayAt(c, i, describe) == Ok(r.value[i]))
  {
    if daily.None? || !daily.value.Obj? {
      return Err(NoDailyData);
    }
    var c := ColumnsOf(daily.value.fields);
    var n := Min(7, |c.dates|);
    var dayAt := (i: nat) requires i < |c.dates| => DayAt(c, i, describe);
    r := CollectDays(n, dayAt);
    if r.Err? {
      var k :| 0 <= k < n && dayAt(k) == Err(r.message);
      assert DayAt(c, k, describe).Err?;
    } else {
      forall i | 0 <= i < n
        ensures DayAt(c, i, describe) == Ok(r.value[i])
      {
        assert dayAt(i) == Ok(r.value[i]);
      }
    }
  }

  /** The loop of `_build_forecast_days` over the first `n` dates: one day
      per iteration, computed by `dayAt`, stopping at the first that fails. */
  method CollectDays(n: nat, dayAt: nat --> Result<ForecastDay>) returns (r: Result<seq<ForecastDay>>)
    requires forall i :: 0 <= i < n ==> dayAt.requires(i)
    ensures r.Ok? <==> forall i :: 0 <= i < n ==> dayAt(i).Ok?
    ensures r.Err? ==> exists i :: 0 <= i < n && dayAt(i) == Err(r.message)
    ensures r.Ok? ==> |r.value| == n && forall i :: 0 <= i < n ==> dayAt(i) == Ok(r.value[i])
  {
    var days: seq<ForecastDay> := [];
    var index := 0;
    while index < n
      invariant 0 <= index <= n
      invariant |days| == index
      invariant forall i :: 0 <= i < index ==> dayAt(i) == Ok(days[i])
    {
      var day := dayAt(index);
      if day.Err? {
        return Err(day.message);
      }
      days := days + [day.value];
      index := index + 1;
    }
    return Ok(days);
  }

  // ---------------------------------------------------------------------
  // The two endpoints

  /** The validation and dispatch of `recommend` (`POST /api/recommend`):
      every invalid field is recorded under its own key, and any recorded
      error answers 400 without computing a recommendation. */
  method Recommend(payload: map<string, Json>) returns (resp: Response<Recommendation>)
    ensures var weather := WeatherField(Get(payload, "weather"));
            var t := NormalizeMaybeNumber(Get(payload, "temperature"));
            var w := NormalizeMaybeNumber(Get(payload, "windSpeed"));
            && (resp.status == 400 <==> IsBlank(weather) || t.Err? || w.Err?)
            && (resp.status == 400 <==> resp.body.Failure?)
            && (resp.status != 400 ==>
                  (resp.status == 200 && Suggest(weather, t.value, w.value) == Ok(resp.body.data)))
            && (resp.body.Failure? ==>
                  && resp.body.errors.Keys <= {"weather", "temperature", "windSpeed"}
                  && ("weather" in resp.body.errors <==> IsBlank(weather))
                  && ("temperature" in resp.body.errors <==> t.Err?)
                  && ("windSpeed" in resp.body.errors <==> w.Err?)
                  && ("weather" in resp.body.errors ==> resp.body.errors["weather"] == WeatherMissing)
                  && ("temperature" in resp.body.errors ==> resp.body.errors["temperature"] == InvalidNumber)
                  && ("windSpeed" in resp.body.errors ==> resp.body.errors["windSpeed"] == InvalidNumber))
  {
    var weather := WeatherField(Get(payload, "weather"));
    var errors: map<string, string> := map[];
    var temperature: Option<real> := None;
    var windSpeed: Option<real> := None;

    if Strip(weather) == [] {
      errors := errors["weather" := WeatherMissing];
    }
    var t := NormalizeMaybeNumber(Get(payload, "temperature"));
    match t {
      case Ok(v) => temperature := v;
      case Err(m) => errors := errors["temperature" := m];
    }
    var w := NormalizeMaybeNumber(Get(payload, "windSpeed"));
    match w {
      case Ok(v) => windSpeed := v;
      case Err(m) => errors := errors["windSpeed" := m];
    }

    if |errors| > 0 {
      return Response(400, Failure(errors));
    }
    assert errors == map[];

    var recommendation := SuggestOutfit(weather, temperature, windSpeed);
    match recommendation {
      case Err(m) =>
        // the blank check above has already rejected every weather text
        // that suggest_outfit rejects
        resp := Response(400, Failure(map["weather" := m]));
        assert false;
      case Ok(rec) =>
        resp := Response(200, Success(rec));
    }
  }

  /** The validation step of `auto_forecast`: one error per coordinate that
      is missing or malformed, and the two values when there is none. */
  method ReadCoordinates(payload: map<string, Json>)
    returns (errors: map<string, string>, latitude: real, longitude: real)
    ensures var lat := NormalizeCoordinate(Get(payload, "latitude"));
            var lon := NormalizeCoordinate(Get(payload, "longitude"));
            && errors.Keys == (if lat.Err? then {"latitude"} else {}) + (if lon.Err? then {"longitude"} else {})
            && (lat.Err? ==> errors["latitude"] == lat.message)
            && (lon.Err? ==> errors["longitude"] == lon.message)
            && (lat.Ok? ==> latitude == lat.value)
            && (lon.Ok? ==> longitude == lon.value)
  {
    errors := map[];
    latitude, longitude := 0.0, 0.0;
    var lat := NormalizeCoordinate(Get(payload, "latitude"));
    match lat {
      case Ok(v) => latitude := v;
      case Err(m) => errors := errors["latitude" := m];
    }
    var lon := NormalizeCoordinate(Get(payload, "longitude"));
    match lon {
      case Ok(v) => longitude := v;
      case Err(m) => errors := errors["longitude" := m];
    }
  }

  /** `auto_forecast` (`POST /api/auto-forecast`), with the outcome of the
      call to the forecast service given as `fetched`. */
  method AutoForecast(payload: map<string, Json>, fetched: Result<map<string, Json>>,
                      describe: Json -> (string, string))
    returns (resp: Response<Forecast>)
    ensures var lat := NormalizeCoordinate(Get(payload, "latitude"));
            var lon := NormalizeCoordinate(Get(payload, "longitude"));
            && (resp.status == 400 <==> lat.Err? || lon.Err?)
            && (resp.status == 400 ==>
                  && resp.body.Failure?
                  && resp.body.errors.Keys == (if lat.Err? then {"latitude"} else {}) + (if lon.Err? then {"longitude"} else {})
                  && (lat.Err? ==> resp.body.errors["latitude"] == lat.message)
                  && (lon.Err? ==> resp.body.errors["longitude"] == lon.message))
            && (resp.status == 200 ==>
                  && resp.body.Success? && fetched.Ok?
                  && resp.body.data.latitude == lat.value && resp.body.data.longitude == lon.value
                  && resp.body.data.timezone == Get(fetched.value, "timezone")
                  && |resp.body.data.days| > 0)
    ensures resp.status == 200 || resp.status == 400 || resp.status == 502
    ensures resp.status == 502 ==> resp.body.Failure? && resp.body.errors.Keys == {"general"}
    ensures resp.status != 400 && fetched.Err? ==> resp == Response(502, Failure(map["general" := fetched.message]))
    ensures resp.status != 400 && fetched.Ok? && Get(fetched.value, "daily").Some? && Get(fetched.value, "daily").value.Obj?
            && |ColumnsOf(Get(fetched.value, "daily").value.fields).dates| == 0 ==>
              resp == Response(502, Failure(map["general" := NoDays]))
    ensures var lat := NormalizeCoordinate(Get(payload, "latitude"));
            var lon := NormalizeCoordinate(Get(payload, "longitude"));
            var daily := if fetched.Ok? then Get(fetched.value, "daily") else None;
            lat.Ok? && lon.Ok? && fetched.Ok? ==>
              if daily.None? || !daily.value.Obj? then resp == Response(502, Failure(map["general" := NoDailyData]))
              else
                var c := ColumnsOf(daily.value.fields);
                var n := Min(7, |c.dates|);
                if exists i :: 0 <= i < n && DayAt(c, i, describe).Err? then
                  resp == Response(502, Failure(map["general" := EmptyWeather]))
                else if n == 0 then resp == Response(502, Failure(map["general" := NoDays]))
                else
                  && resp.status == 200 && resp.body.Success? && |resp.body.data.days| == n
                  && forall i :: 0 <= i < n ==> DayAt(c, i, describe) == Ok(resp.body.data.days[i])
  {
    var errors, latitude, longitude := ReadCoordinates(payload);
    if |errors| > 0 {
      return Response(400, Failure(errors));
    }

    if fetched.Err? {
      return Response(502, Failure(map["general" := fetched.message]));
    }
    var forecastRaw := fetched.value;

    var days := BuildForecastDays(Get(forecastRaw, "daily"), describe);
    if days.Err? {
      return Response(502, Failure(map["general" := days.message]));
    }

    if |days.value| == 0 {
      return Response(502, Failure(map["general" := NoDays]));
    }

    resp := Response(200, Success(Forecast(latitude, longitude, Get(forecastRaw, "timezone"), days.value)));
  }
}

=== FILE: text.dfy ===
/** Text and number helpers shared by the server-side and the client-side
    models: optional values and errors, whitespace trimming (Python's
    `str.strip()`, JavaScript's `String.prototype.trim()`), ASCII lower-casing,
    joining and splitting, the decimal number syntax accepted by Python's
    `float(str)` and JavaScript's `Number(str)`, integer text and `Math.round`. */
module Text {

  datatype Option<+T> = None | Some(value: T) {
    function GetOr(default: T): T {
      match this
      case Some(v) => v
      case None => default
    }
  }

  /** A value or the message of the exception that replaced it. */
  datatype Result<+T> = Ok(value: T) | Err(message: string)

  // ---------------------------------------------------------------------
  // Whitespace

  /** The whitespace characters removed by both `str.strip()` and `trim()`:
      the ASCII controls tab to carriage return, the space separators of
      Unicode category Zs, and the line and paragraph separators. */
  predicate IsSpace(c: char) {
    || c in {' ', '\t', '\n', '\r', '\U{0B}', '\U{0C}', '\U{A0}', '\U{1680}'}
    || ('\U{2000}' <= c <= '\U{200A}')
    || c in {'\U{2028}', '\U{2029}', '\U{202F}', '\U{205F}', '\U{3000}'}
  }

  /** A string that is empty or made only of whitespace. */
  predicate IsBlank(s: string) {
    forall i :: 0 <= i < |s| ==> IsSpace(s[i])
  }

  /** Leading whitespace removed. */
  function TrimStart(s: string): string {
    if s != [] && IsSpace(s[0]) then TrimStart(s[1..]) else s
  }

  /** Trailing whitespace removed. */
  function TrimEnd(s: string): string {
    if s != [] && IsSpace(s[|s| - 1]) then TrimEnd(s[..|s| - 1]) else s
  }

  /** `TrimStart` drops a prefix of whitespace and stops at the first other
      character. */
  lemma {:induction false} TrimStartSpec(s: string)
    ensures var r := TrimStart(s);
            && |r| <= |s| && r == s[|s| - |r|..]
            && (forall i :: 0 <= i < |s| - |r| ==> IsSpace(s[i]))
            && (r == [] || !IsSpace(r[0]))
  {
    if s != [] && IsSpace(s[0]) {
      var t := s[1..];
      TrimStartSpec(t);
      var r := TrimStart(t);
      assert t[|t| - |r|..] == s[|s| - |r|..];
      forall i | 0 < i < |s| - |r|
        ensures IsSpace(s[i])
      {
        assert s[i] == t[i - 1];
      }
    }
  }

  /** `TrimEnd` drops a suffix of whitespace and stops at the last other
      character. */
  lemma {:induction false} TrimEndSpec(s: string)
    ensures var r := TrimEnd(s);
            && |r| <= |s| && r == s[..|r|]
            && (forall i :: |r| <= i < |s| ==> IsSpace(s[i]))
            && (r == [] || !IsSpace(r[|r| - 1]))
  {
    if s != [] && IsSpace(s[|s| - 1]) {
      var t := s[..|s| - 1];
      TrimEndSpec(t);
      var r := TrimEnd(t);
      assert t[..|r|] == s[..|r|];
      forall i | |r| <= i < |s| - 1
        ensures IsSpace(s[i])
      {
        assert s[i] == t[i];
      }
    }
  }

  /** Leading and trailing whitespace removed. */
  function Strip(s: string): (r: string)
    ensures |r| <= |s|
    ensures r == [] || (!IsSpace(r[0]) && !IsSpace(r[|r| - 1]))
    ensures r == [] <==> IsBlank(s)
  {
    TrimStartSpec(s);
    TrimEndSpec(TrimStart(s));
    TrimEnd(TrimStart(s))
  }

  /** `Strip` keeps the middle of its input: the result is the slice of `s`
      that starts after the leading whitespace, and everything of `s` before
      and after that slice is whitespace. */
  lemma StripSpec(s: string)
    ensures var r := Strip(s);
            var i := |s| - |TrimStart(s)|;
            && 0 <= i && i + |r| <= |s| && r == s[i..i + |r|]
            && (forall k :: 0 <= k < i ==> IsSpace(s[k]))
            && (forall k :: i + |r| <= k < |s| ==> IsSpace(s[k]))
  {
    var t := TrimStart(s);
    TrimStartSpec(s);
    TrimEndSpec(t);
    var i := |s| - |t|;
    var r := Strip(s);
    assert r == t[..|r|];
    assert t[..|r|] == s[i..i + |r|];
    forall k | i + |r| <= k < |s|
      ensures IsSpace(s[k])
    {
      assert s[k] == t[k - i];
    }
  }

  /** A string with no whitespace at either end is its own strip. */
  lemma StripTrimmed(s: string)
    requires s == [] || (!IsSpace(s[0]) && !IsSpace(s[|s| - 1]))
    ensures Strip(s) == s
  {
  }

  lemma {:induction false} StripIdempotent(s: string)
    ensures Strip(Strip(s)) == Strip(s)
  {
    StripTrimmed(Strip(s));
  }

  // ---------------------------------------------------------------------
  // Lower case

  function LowerChar(c: char): (d: char)
    ensures IsSpace(d) <==> IsSpace(c)
    ensures !('A' <= d <= 'Z')
  {
    if 'A' <= c <= 'Z' then (c as int - 'A' as int + 'a' as int) as char else c
  }

  /** `str.lower()` restricted to the ASCII letters. */
  function Lower(s: string): (r: string)
    ensures |r| == |s|
    ensures forall i :: 0 <= i < |s| ==> r[i] == LowerChar(s[i])
  {
    seq(|s|, i requires 0 <= i < |s| => LowerChar(s[i]))
  }

  /** A string with no upper-case ASCII letter. */
  predicate IsLower(s: string) {
    forall i :: 0 <= i < |s| ==> !('A' <= s[i] <= 'Z')
  }

  lemma LowerOfLower(s: string)
    requires IsLower(s)
    ensures Lower(s) == s
  {
  }

  /** Lower-casing a stripped string keeps it stripped and lower-cased. */
  lemma {:induction false} LowerStripStable(s: string)
    ensures Lower(Strip(Lower(Strip(s)))) == Lower(Strip(s))
  {
    var k := Lower(Strip(s));
    StripTrimmed(k);
    LowerOfLower(k);
  }

  // ---------------------------------------------------------------------
  // Joining and splitting

  /** `sep.join(items)` in Python, `items.join(sep)` in JavaScript. */
  function Join(items: seq<string>, sep: string): string {
    if items == [] then []
    else if |items| == 1 then items[0]
    else items[0] + sep + Join(items[1..], sep)
  }

  /** A joined text starts with its first item. */
  lemma JoinStartsWithFirst(items: seq<string>, sep: string)
    requires items != []
    ensures items[0] <= Join(items, sep)
    ensures |items| > 1 ==> items[0] + sep + items[1] <= Join(items, sep)
  {
    if |items| > 1 {
      var rest := items[1..];
      assert rest[0] == items[1];
      assert Join(items, sep) == items[0] + sep + Join(rest, sep);
      if |rest| > 1 {
        assert Join(rest, sep) == rest[0] + sep + Join(rest[1..], sep);
      }
    }
  }

  /** Splits at every occurrence of `c`, keeping empty pieces. */
  function Split(s: string, c: char): (r: seq<string>)
    ensures |r| >= 1
  {
    if s == [] then [""]
    else if s[0] == c then [""] + Split(s[1..], c)
    else
      var rest := Split(s[1..], c);
      [[s[0]] + rest[0]] + rest[1..]
  }

  /** No item of `items` contains `c`. */
  predicate FreeOf(items: seq<string>, c: char) {
    forall i :: 0 <= i < |items| ==> c !in items[i]
  }

  lemma {:induction false} SplitFree(a: string, c: char)
    requires c !in a
    ensures Split(a, c) == [a]
  {
    if a != [] {
      SplitFree(a[1..], c);
      assert [a[0]] + a[1..] == a;
    }
  }

  lemma {:induction false} SplitAfterPiece(a: string, c: char, s: string)
    requires c !in a
    ensures Split(a + [c] + s, c) == [a] + Split(s, c)
  {
    if a == [] {
      assert a + [c] + s == [c] + s;
    } else {
      assert (a + [c] + s)[1..] == a[1..] + [c] + s;
      SplitAfterPiece(a[1..], c, s);
      assert [a[0]] + a[1..] == a;
    }
  }

  /** Splitting at a one-character separator undoes joining with it. */
  lemma {:induction false} SplitJoin(items: seq<string>, c: char)
    requires |items| >= 1 && FreeOf(items, c)
    ensures Split(Join(items, [c]), c) == items
  {
    if |items| == 1 {
      SplitFree(items[0], c);
    } else {
      SplitJoin(items[1..], c);
      SplitAfterPiece(items[0], c, Join(items[1..], [c]));
    }
  }

  /** Joining never introduces a character that is in neither the items nor the separator. */
  lemma {:induction false} JoinFree(items: seq<string>, sep: string, c: char)
    requires FreeOf(items, c) && c !in sep
    ensures c !in Join(items, sep)
  {
    if |items| > 1 {
      JoinFree(items[1..], sep, c);
    }
  }

  // ---------------------------------------------------------------------
  // Numbers

  predicate IsDigit(c: char) { '0' <= c <= '9' }

  predicate AllDigits(s: string) {
    forall i :: 0 <= i < |s| ==> IsDigit(s[i])
  }

  /** The value of a string of decimal digits, most significant first. */
  function DigitsValue(ds: string): nat
    requires AllDigits(ds)
  {
    if ds == [] then 0
    else DigitsValue(ds[..|ds| - 1]) * 10 + (ds[|ds| - 1] as int - '0' as int)
  }

  function Pow10(n: nat): (p: nat)
    ensures p >= 1
  {
    if n == 0 then 1 else 10 * Pow10(n - 1)
  }

  /** The index of the first `c` in `s`, or `|s|`. */
  function IndexOf(s: string, c: char): (k: nat)
    ensures k <= |s|
    ensures c !in s[..k]
    ensures k < |s| ==> s[k] == c
  {
    if s == [] then 0
    else if s[0] == c then 0
    else 1 + IndexOf(s[1..], c)
  }

  /** Unsigned decimal literal: digits, optionally a point and more digits,
      with at least one digit in all. */
  function ParseUnsigned(s: string): (r: Option<real>)
    ensures r.Some? ==> r.value >= 0.0
  {
    var k := IndexOf(s, '.');
    var whole := s[..k];
    var frac := if k < |s| then s[k + 1..] else [];
    if AllDigits(whole) && AllDigits(frac) && |whole| + |frac| > 0 then
      Some(DigitsValue(whole) as real + Fraction(frac))
    else None
  }

  /** The value of the digits after a decimal point. */
  function Fraction(ds: string): (f: real)
    requires AllDigits(ds)
    ensures ds == [] ==> f == 0.0
  {
    DigitsValue(ds) as real / Pow10(|ds|) as real
  }

  /** A decimal literal with an optional sign, the syntax shared by
      Python's `float(str)` and JavaScript's `Number(str)` once the
      surrounding whitespace is removed. */
  function ParseDecimal(s: string): Option<real> {
    if s != [] && s[0] == '-' then
      match ParseUnsigned(s[1..])
      case Some(v) => Some(-v)
      case None => None
    else if s != [] && s[0] == '+' then ParseUnsigned(s[1..])
    else ParseUnsigned(s)
  }

  function DigitChar(d: nat): (c: char)
    requires d < 10
    ensures IsDigit(c) && c as int - '0' as int == d
  {
    ('0' as int + d) as char
  }

  /** Decimal text of a natural number, as `String(n)` and `str(n)` print it. */
  function NatToString(n: nat): (s: string)
    ensures |s| >= 1 && AllDigits(s)
  {
    if n < 10 then [DigitChar(n)] else NatToString(n / 10) + [DigitChar(n % 10)]
  }

  function IntToString(i: int): string {
    if i < 0 then "-" + NatToString(-i) else NatToString(i)
  }

  lemma {:induction false} NatToStringValue(n: nat)
    ensures DigitsValue(NatToString(n)) == n
  {
    if n >= 10 {
      var s := NatToString(n);
      assert s[..|s| - 1] == NatToString(n / 10);
      NatToStringValue(n / 10);
    }
  }

  lemma ParseUnsignedDigits(s: string)
    requires |s| >= 1 && AllDigits(s)
    ensures ParseUnsigned(s) == Some(DigitsValue(s) as real)
  {
    DigitsHaveNoPoint(s);
    assert s[..|s|] == s;
    assert Fraction([]) == 0.0;
  }

  /** A string of digits has no decimal point. */
  lemma {:induction false} DigitsHaveNoPoint(s: string)
    requires AllDigits(s)
    ensures IndexOf(s, '.') == |s|
  {
    if s != [] {
      assert IsDigit(s[0]);
      assert AllDigits(s[1..]) by {
        forall i | 0 <= i < |s| - 1 ensures IsDigit(s[1..][i]) {
          assert s[1..][i] == s[i + 1];
        }
      }
      DigitsHaveNoPoint(s[1..]);
    }
  }

  /** Reading back the text of an integer gives the integer. */
  lemma {:induction false} ParseIntToString(i: int)
    ensures ParseDecimal(IntToString(i)) == Some(i as real)
  {
    var n: nat := if i < 0 then -i else i;
    var s := NatToString(n);
    NatToStringValue(n);
    ParseUnsignedDigits(s);
    if i < 0 {
      assert IntToString(i)[1..] == s;
    }
  }

  /** `Math.round` on a finite number: the nearest integer, halves rounded up. */
  function Round(x: real): (r: int)
    ensures r as real - 0.5 <= x < r as real + 0.5
  {
    (x + 0.5).Floor
  }

  function Min(a: int, b: int): int { if a <= b then a else b }
}
